=== FILE: README.md ===
# Bounded byte stream and the sender's connection phase

This project models two pieces of a teaching TCP implementation in Dafny and proves properties of them.

**The bounded byte stream** (`ByteStream`, in `byte_stream.dfy`) is a writer/reader pair over fixed-capacity storage:
- The storage is `2 * capacity` cells long, used as a ring.
- Two monotonic cursors count every byte ever written (`writerPos`) and ever read (`readerPos`).
- `Push` accepts as much of the data as the free capacity allows and drops the rest. Its copy splits in two when it crosses the end of the storage.
- `Peek` and `Pop` read from the front.
- `Close` marks the end of input, and `IsFinished` reports a closed stream that has been read to the end.
- The stream's abstract value is `Contents`: the buffered bytes, oldest first. Every property is stated against it.

**Wrapped sequence numbers** (`Wrap32`, in `wrap32.dfy`) map absolute stream indices to the 32-bit wire values `(isn + abs) mod 2^32`. They unwrap next to a checkpoint.

**The sending half of the transport** (`TcpSender`, in `sender.dfy`) is reduced to its connection phase. Its state records:
- the initial sequence number and the next absolute sequence number;
- the outstanding (sent but unacknowledged) segments;
- the last advertised window;
- whether SYN and FIN have been sent;
- the outbound `ByteStream` the application writes into.

Its operations:
- `MakeSegments` frames segments into the window: SYN first, then data, then FIN.
- `Push` writes into the stream and then sends.
- `Receive` processes the receiver's acknowledgment, window and reset flag.

**The eight connection scenarios** of the sender's tests are proved in `SendConnect` (`send_connect.dfy`). Each holds for every 32-bit initial sequence number: each test's `isn + k` is `Wrap(k, isn)`.

## Model

| member | source | states |
|---|---|---|
| `ByteStream.New` | minnow-lab0/src/byte_stream.cc:6-10 | A new stream satisfies the invariant: it holds nothing, all of `capacity` is free, and it is neither closed, finished nor in error. |
| `ByteStream.Accepted` | minnow-lab0/src/byte_stream.cc:15 | A push accepts no more than the data's length and no more than the free capacity, and it accepts one of the two in full. So it accepts exactly their minimum. |
| `ByteStream.Push` | minnow-lab0/src/byte_stream.cc:13-28 | A push keeps the invariant, so at most `capacity` bytes stay buffered. The write cursor advances by exactly the accepted count. The read cursor, capacity, closed flag and error flag are unchanged. |
| `ByteStream.PushAsWritten` | minnow-lab0/src/byte_stream.cc:13-28 | The push exactly as written: whenever its copies stay in bounds, it keeps the invariant and advances the write cursor by the accepted count (line 26), changing nothing else but the storage. |
| `ByteStream.PushContents` | minnow-lab0/src/byte_stream.cc:13-28 | The buffered bytes after a push are the old buffered bytes followed by the accepted prefix of the data, in order. |
| `ByteStream.PushPlacesBytes` | minnow-lab0/src/byte_stream.cc:16-24 | Accepted byte `i` lands in the storage cell of position `writerPos + i`, i.e. cell `(writerPos + i) mod N`. This holds in both the non-wrapping and the wrapping branch. |
| `ByteStream.PushKeepsOthers` | minnow-lab0/src/byte_stream.cc:16-24 | A push changes no cell beyond the accepted bytes, up to a full lap ahead of the write cursor. |
| `ByteStream.CellIsMod` | minnow-lab0/src/byte_stream.cc:16 | The cell a position occupies is the position modulo the storage length. |
| `ByteStream.PushEmpty` | minnow-lab0/src/byte_stream.cc:15-26 | Pushing the empty string leaves the whole state unchanged. |
| `ByteStream.PushAsWrittenFaults` | minnow-lab0/src/byte_stream.cc:16-24 | The push as written copies out of bounds exactly when the copy wraps and the write cursor has completed a lap. Whenever it stays in bounds, it agrees with the corrected push. |
| `ByteStream.WrapOffsetUnique` | minnow-lab0/src/byte_stream.cc:22 | The first part of a wrapping copy lands at the cells of positions `writerPos + i` if and only if it starts at the write cursor's cell. |
| `ByteStream.AsWrittenOverrunExample` | minnow-lab0/src/byte_stream.cc:19-24 | For every capacity of at least 2 there is a reachable stream on which the push as written copies out of bounds, while the corrected push stores both bytes in order. |
| `ByteStream.Close` | minnow-lab0/src/byte_stream.cc:30-34 | Closing marks the stream closed and changes nothing else; the buffered bytes stay as they are. |
| `ByteStream.CloseFinishes` | minnow-lab0/src/byte_stream.cc:30-41 | After `Close` the stream is closed. A closed stream is finished if and only if nothing is buffered, and in general a stream is finished if and only if it is closed and empty. |
| `ByteStream.ClosedStaysClosed` | minnow-lab0/src/byte_stream.cc:36-41 | A new stream is not closed, a closed one stays closed, and only `Close` changes the flag; push, pop and an error leave it alone. |
| `ByteStream.SetError` | minnow-lab0/src/byte_stream.cc:10 | Setting the error flag, which the constructor clears, keeps the invariant and changes nothing else: storage, cursors, capacity and closed flag stay as they were. |
| `ByteStream.BytesPushedCounts` | minnow-lab0/src/byte_stream.cc:50-55 | Bytes pushed starts at 0 and grows by exactly what each push accepts. Pop and close leave it unchanged. |
| `ByteStream.AvailableCapacity` | minnow-lab0/src/byte_stream.cc:43-48 | Free capacity plus buffered bytes is always exactly `capacity`. |
| `ByteStream.BytesBuffered` | minnow-lab0/src/byte_stream.cc:80-85 | Bytes buffered equal bytes pushed minus bytes popped. They equal the length of the buffered content and never exceed `capacity`. |
| `ByteStream.BytesPoppedCounts` | minnow-lab0/src/byte_stream.cc:87-92 | Bytes popped starts at 0 and grows by exactly the number of bytes a pop removes from the buffered content. Push and close leave it unchanged. |
| `ByteStream.IsFinished` | minnow-lab0/src/byte_stream.cc:73-78 | The stream is finished if and only if it is closed and nothing is buffered. |
| `ByteStream.Peek` | minnow-lab0/src/byte_stream.cc:57-65 | A peek returns no more than is buffered, and it is non-empty whenever something is buffered. |
| `ByteStream.PeekIsPrefix` | minnow-lab0/src/byte_stream.cc:57-65 | The peeked bytes are a prefix of the buffered content. A peek stops short of everything buffered only at the end of the storage. |
| `ByteStream.Pop` | minnow-lab0/src/byte_stream.cc:67-71 | `pop(len)` keeps the invariant, leaves the storage and write cursor alone, and raises `bytes_popped` by `len`, clamped to what is buffered. |
| `ByteStream.PopContents` | minnow-lab0/src/byte_stream.cc:67-71 | Popping removes bytes from the front: what remains is the buffered content after its first `len` bytes, or nothing. |
| `ByteStream.Read` | minnow-lab0/src/byte_stream.cc:57-71 | Repeated peek-and-pop up to `len` bytes returns the first `min(len, buffered)` buffered bytes in order. It leaves the stream as one `pop` of that many bytes would. |
| `ByteStream.Drain` | minnow-lab0/src/byte_stream.cc:57-92 | Peeking and popping until nothing is buffered yields exactly the buffered content. Afterwards `bytes_popped` equals `bytes_pushed`. |
| `ByteStream.RoundTrip` | minnow-lab0/src/byte_stream.cc:13-28 | Data pushed into a fresh stream that has room for all of it is read back unchanged and in order. |
| `Wrap32.Wrap` | minnow-lab0/tests/send_connect.cc:19-25 | The wire value differs from `isn + abs` by a multiple of 2^32. |
| `Wrap32.Unwrap` | minnow-lab0/tests/send_connect.cc:40 | Unwrapping yields an index whose wire value is the given one, within one cycle of the checkpoint. |
| `Wrap32.UnwrapNearest` | minnow-lab0/tests/send_connect.cc:40 | Of all indices with the given wire value, unwrapping picks one nearest to the checkpoint; any other index that is as near is larger. |
| `Wrap32.UnwrapWrap` | minnow-lab0/tests/send_connect.cc:79 | Unwrapping the wire value of any index within half a cycle of the checkpoint gives that index back. |
| `TcpSender.Init` | minnow-lab0/tests/send_connect.cc:18-22 | A fresh sender satisfies the invariant: nothing sent, nothing in flight, next sequence number 0, no error. |
| `TcpSender.Frame` | minnow-lab0/tests/send_connect.cc:142-147 | The next segment is framed at the wrapped `nextSeqno`. It carries SYN if and only if none was sent, and as much payload as the window (less the SYN) and the payload limit allow, taken from the front of the stream. It carries FIN if and only if the stream is then finished and one more sequence number fits in the window. |
| `TcpSender.Emit` | minnow-lab0/tests/send_connect.cc:24-26 | Sending a segment appends it to the outstanding segments and advances the next sequence number and the count in flight by the segment's length. The invariant is kept. |
| `TcpSender.MakeSegments` | minnow-lab0/tests/send_connect.cc:23-27 | Sending keeps the invariant. A reset, a sent FIN or a full window means nothing is sent and the state is unchanged. |
| `TcpSender.MakeSegmentsTracks` | minnow-lab0/tests/send_connect.cc:76-78 | The segments sent become the newest outstanding entries, back to back from the old next sequence number. |
| `TcpSender.MakeSegmentsAdvances` | minnow-lab0/tests/send_connect.cc:76-77 | The next sequence number moves past every segment sent: SYN and FIN count one each, a payload counts its length. |
| `TcpSender.MakeSegmentsInFlight` | minnow-lab0/tests/send_connect.cc:77-78 | The sequence numbers in flight grow by exactly the total length of the segments sent. |
| `TcpSender.MakeSegmentsInOrder` | minnow-lab0/tests/send_connect.cc:74-76 | The payloads sent, concatenated, are exactly the bytes taken from the front of the stream. Nothing is lost or reordered. |
| `TcpSender.MakeSegmentsRespectsWindow` | minnow-lab0/tests/send_connect.cc:126-131 | Once anything is sent, the sequence numbers in flight fit in the effective window. |
| `TcpSender.MakeSegmentsFlags` | minnow-lab0/tests/send_connect.cc:142-147 | Only the first segment ever sent carries SYN. A FIN is sent at most once and only on the last segment of a run. |
| `TcpSender.MakeSegmentsFillsWindow` | minnow-lab0/tests/send_connect.cc:126-131 | Sending stops only after one of these: a reset, a sent FIN, a full window, or a SYN already out with no byte the payload limit lets it send and no FIN due. |
| `TcpSender.NothingToSend` | minnow-lab0/tests/send_connect.cc:96-100 | A sender whose SYN is out, whose stream is empty, and whose stream is open or whose FIN is out, sends nothing and keeps its state. |
| `TcpSender.Push` | minnow-lab0/tests/send_connect.cc:74-76 | Writing, optionally closing, and then sending keeps the invariant. |
| `TcpSender.DropAcked` | minnow-lab0/tests/send_connect.cc:79-81 | Only whole segments covered by the ack are dropped, from the front. The first segment kept reaches past the ack. |
| `TcpSender.Receive` | minnow-lab0/tests/send_connect.cc:50-58 | Feedback keeps the invariant. It never changes the next sequence number or the SYN and FIN flags. The sender is in error if and only if it was before or the message is a reset. |
| `TcpSender.ReceiveRetiresPrefix` | minnow-lab0/tests/send_connect.cc:40-42 | What stays outstanding after feedback is a suffix of what was, with no more sequence numbers in flight. |
| `TcpSender.ReceiveAcksAll` | minnow-lab0/tests/send_connect.cc:79-82 | Acknowledging the next sequence number retires every outstanding segment, leaves nothing in flight, and takes over the window. |
| `TcpSender.ReceiveAcksNone` | minnow-lab0/tests/send_connect.cc:55-58 | Acknowledging the first unacknowledged number retires nothing. Only the window changes. |
| `TcpSender.ReceiveIgnoresUnsent` | minnow-lab0/tests/send_connect.cc:50-58 | An ack of sequence numbers never sent leaves the sender exactly as it was. |
| `TcpSender.ReceiveIgnoresStale` | minnow-lab0/tests/send_connect.cc:50-58 | An ack of numbers below the first unacknowledged one (within half a cycle) is ignored: the sender stays exactly as it was, window included. |
| `TcpSender.ReceiveWindowOnly` | minnow-lab0/tests/send_connect.cc:109-110 | A message without an ackno changes the window and nothing else. |
| `TcpSender.ResetHalts` | minnow-lab0/tests/send_connect.cc:90-92 | After a reset the sender is in error and sends nothing, whatever is written or received next. |
| `TcpSender.InFlightSpan` | minnow-lab0/tests/send_connect.cc:25-26 | The sequence numbers in flight are exactly those from the first unacknowledged one up to the next sequence number. |
| `SendConnect.Deliver` | minnow-lab0/tests/send_connect.cc:110 | Delivering a message keeps the invariant. Delivering without a push sends nothing. |
| `SendConnect.FirstPush` | minnow-lab0/tests/send_connect.cc:141-147 | A fresh sender's first push sends one segment: SYN, all the data, and FIN if the stream is closed and it fits. Afterwards the next sequence number is `1 + len (+1)`, all of it in flight, and there is no error. |
| `SendConnect.SynSentAfterFirstPush` | minnow-lab0/tests/send_connect.cc:22-27 | An empty first push sends a bare SYN at `isn`. The next seqno is `isn + 1`, one seqno is in flight, and there is no error. |
| `SendConnect.SynAcked` | minnow-lab0/tests/send_connect.cc:35-42 | The empty first push sends a bare SYN at `isn`, leaving next seqno `isn + 1` with one in flight. A following ack of `isn + 1` sends nothing and leaves nothing in flight. |
| `SendConnect.SynWrongAck` | minnow-lab0/tests/send_connect.cc:50-58 | After the bare SYN (next seqno `isn + 1`, one in flight), an ack of `isn` retires nothing: the next seqno stays `isn + 1`, nothing is sent, and one seqno stays in flight. |
| `SendConnect.SynAckedThenData` | minnow-lab0/tests/send_connect.cc:66-82 | The SYN goes out alone (next seqno `isn + 1`, one in flight), and its ack sends nothing and leaves nothing in flight. Pushing the data then sends one segment at `isn + 1` carrying it. The next seqno is `isn + 1 + len` with `len` in flight. An ack of `isn + 1 + len` leaves nothing in flight and sends nothing. |
| `SendConnect.WindowArrivesFirst` | minnow-lab0/tests/send_connect.cc:90-100 | A window of 20 before any push yields exactly one bare SYN at `isn`. The next seqno is `isn + 1` with one in flight. |
| `SendConnect.WindowArrivesFirstNoPush` | minnow-lab0/tests/send_connect.cc:109-116 | A window of 1024 delivered without sending, then an empty push, gives one bare SYN without FIN. The next seqno is `isn + 1` with one in flight, and there is no error. |
| `SendConnect.WindowFirstWithData` | minnow-lab0/tests/send_connect.cc:125-132 | With window 1024 known, pushed data rides on the SYN. The next seqno is `isn + 1 + len` with `1 + len` in flight, and there is no error. |
| `SendConnect.WindowFirstWithDataAndClose` | minnow-lab0/tests/send_connect.cc:141-148 | With window 1024 known, push-and-close sends one segment with SYN, the data and FIN. The next seqno is `isn + 1 + len + 1` with that many in flight. |

## Left out

- Only the constructor and `push` of `byte_stream.cc` have bodies; the other stream operations are stubs. They are modelled after their doc comments, which state what each one is meant to do.
- The constructor has no end-of-input flag; the model's `Stream` adds `closed`.
- `pop(len)` clamps `len` to the bytes buffered. The stub gives no rule for a longer request.
- The operation that sets the error flag has no body in `byte_stream.cc`, which only initialises the flag (line 10). `ByteStream.SetError` sets the flag and leaves everything else unchanged.
- Capacity 0 is excluded (`Valid` requires a positive capacity). The source reduces the write cursor modulo the storage length, which is undefined for empty storage.
- The 64-bit cursors are unbounded naturals. Their overflow would take 2^64 bytes.
- The storage is the vector's length, `2 * capacity`, not its allocated capacity.
- Debug logging in the stubs has no behaviour to model.
- `file_descriptor.cc`, `random.cc` and `string_view_range.hh` are not part of this model: they are system-call plumbing, entropy seeding and a type concept. The initial sequence number is an arbitrary 32-bit parameter instead of a random draw.
- The sender's own source is not part of this model. The `TcpSender` state machine is built to the behaviour its connection tests fix.
- The retransmission timer, RTO backoff and retransmission count are left out; so is the `Tick` at send_connect.cc:75, which only advances that timer.
- The payload limit, the stream capacity and the window an acknowledgment carries are scenario parameters. The test configuration's defaults (payload limit, stream capacity, the window a bare acknowledgment carries) are defined outside the modelled files. Each scenario lemma requires only what it needs of them, e.g. that the data fits the payload limit and the window.
- A test `Receive` step sends afterwards unless marked `without_push`; `SendConnect.Deliver` models this with a `push` flag.
- A message without an ackno still updates the window. This departs from the rule that a message without an ackno must not change the sender's state: the scenarios at send_connect.cc:126 and 142 rely on a 1024 window advertised without an ackno.
- The SYN may carry data, and FIN too, when the window allows. This departs from the rule that no data is sent before the SYN is acknowledged: send_connect.cc:128 and 144 expect data and FIN on the SYN segment.
- TcpSender.ResetHalts: no scenario sends a reset (send_connect.cc:92 sets `RST = false`), so the tests do not fix what follows one; the model follows the rule that a reset stops the sender for good.
- A window of 0 is treated as 1 (`EffectiveWindow`), so the sender keeps probing. No scenario in send_connect.cc exercises it.
- The sender's source, with its unwrapping of acknowledgment numbers, is not part of this model. `Wrap32.Unwrap` picks the index nearest to the checkpoint, ties going to the smaller one (`Wrap32.UnwrapNearest`). The scenarios only depend on its result within half a cycle (`Wrap32.UnwrapWrap`).

## Findings

| source | as written | input that shows it | evidently intended | confidence | as-written member | corrected member |
|---|---|---|---|---|---|---|
| minnow-lab0/src/byte_stream.cc:22 | In the wrapping branch the first part of the copy goes to `buffer.begin() + writer_pos`, the unreduced cursor. | Capacity 2 (storage of 4 cells), with `available_capacity` and `pop` implemented as their comments describe. Push and pop 2, 2, 2, then 1 byte, so `writer_pos` is 7 and `start` is 3. Pushing 2 bytes wraps with `left` 1, and the first byte is copied to cell 7 of 4. While those two are still stubs, `available_capacity` returns 0, every push accepts nothing, and line 22 is never reached. | Copy the first part to `buffer.begin() + start`, so that byte `i` lands in cell `(writer_pos + i) mod N` and the buffered bytes stay in order. | high; not executed | `ByteStream.AsWrittenOverrunExample` | `ByteStream.PushPlacesBytes` |

=== FILE: byte_stream.dfy ===
/** The bounded byte stream: a fixed ring of `2 * capacity` storage cells with
    two monotonic cursors.  The writer side pushes at `writerPos`, the reader
    side peeks and pops at `readerPos`; the cursors count bytes ever written
    and ever read, and storage cells are addressed modulo the storage length.
 */
module ByteStream {
  import opened Wrappers

  /** The stream's state.  `closed` is the writer's end-of-input mark;
      `error` is the abnormal-termination flag the constructor initialises. */
  datatype Stream = Stream(
    buffer: string,
    writerPos: nat,
    readerPos: nat,
    capacity: nat,
    closed: bool,
    error: bool)

  /** The representation invariant: storage of twice the capacity, cursors in
      order, and never more than `capacity` bytes buffered. */
  predicate Valid(s: Stream) {
    && s.capacity > 0
    && |s.buffer| == 2 * s.capacity
    && s.readerPos <= s.writerPos
    && s.writerPos - s.readerPos <= s.capacity
  }

  /** A fresh stream: nothing written, nothing read, not closed. */
  function New(capacity: nat): (s: Stream)
    requires capacity > 0
    ensures Valid(s)
    ensures Contents(s) == []
    ensures AvailableCapacity(s) == capacity
    ensures !IsClosed(s) && !IsFinished(s) && !s.error
  {
    Stream(seq(2 * capacity, _ => 0 as char), 0, 0, capacity, false, false)
  }

  /** The storage cell that absolute stream position `pos` occupies:
      `pos` reduced by whole laps of the storage of `n` cells, that is `pos % n`
      (see `CellIsMod`). */
  function Cell(n: nat, pos: nat): (i: nat)
    requires n > 0
    ensures i < n && i <= pos
    decreases pos
  {
    if pos < n then pos else Cell(n, pos - n)
  }

  /** The bytes held for absolute positions `from` up to (excluding) `to`. */
  function Ring(buf: string, from: nat, to: nat): (c: string)
    requires |buf| > 0 && from <= to
    ensures |c| == to - from
  {
    seq(to - from, i requires 0 <= i < to - from => buf[Cell(|buf|, from + i)])
  }

  /** The buffered bytes, oldest first: the abstract value of the stream. */
  function Contents(s: Stream): (c: string)
    requires Valid(s)
    ensures |c| == s.writerPos - s.readerPos && |c| <= s.capacity
  {
    Ring(s.buffer, s.readerPos, s.writerPos)
  }

  // ----- Writer -----

  /** Total number of bytes cumulatively pushed. */
  function BytesPushed(s: Stream): nat {
    s.writerPos
  }

  /** How many more bytes a push can accept right now. */
  function AvailableCapacity(s: Stream): (n: nat)
    requires Valid(s)
    ensures n + |Contents(s)| == s.capacity
  {
    s.capacity - (s.writerPos - s.readerPos)
  }

  /** Signals that nothing more will be written. */
  function Close(s: Stream): (r: Stream)
    requires Valid(s)
    ensures Valid(r) && IsClosed(r)
    ensures Contents(r) == Contents(s)
    ensures r.(closed := s.closed) == s
  {
    s.(closed := true)
  }

  /** Marks the stream as aborted; the flag is never cleared. */
  function SetError(s: Stream): (r: Stream)
    requires Valid(s)
    ensures Valid(r) && r.error
    ensures Contents(r) == Contents(s) && r.closed == s.closed
    ensures r.(error := s.error) == s
  {
    s.(error := true)
  }

  /** Has the writer closed the stream? */
  function IsClosed(s: Stream): bool {
    s.closed
  }

  /** `std::copy` of `d` into `buf` starting at cell `off`. */
  function Overwrite(buf: string, off: nat, d: string): (r: string)
    requires off + |d| <= |buf|
    ensures |r| == |buf|
  {
    buf[..off] + d + buf[off + |d|..]
  }

  /** Cell `j` after an overwrite: from `d` inside the copied range, the old
      content outside it. */
  lemma OverwriteAt(buf: string, off: nat, d: string, j: nat)
    requires off + |d| <= |buf| && j < |buf|
    ensures Overwrite(buf, off, d)[j] == if off <= j < off + |d| then d[j - off] else buf[j]
  {
  }

  /** The number of bytes a push of `data` accepts. */
  function Accepted(s: Stream, data: string): (n: nat)
    requires Valid(s)
    ensures n <= |data| && n <= AvailableCapacity(s)
    ensures n == |data| || n == AvailableCapacity(s)
  {
    if |data| <= AvailableCapacity(s) then |data| else AvailableCapacity(s)
  }

  /** The cell `k` positions after cell `start` in a ring of `n` cells. */
  function RingCell(start: nat, k: nat, n: nat): (c: nat)
    requires start < n && k < n
    ensures c < n
  {
    if start + k < n then start + k else start + k - n
  }

  /** Copies `d` into the ring from cell `start`: as much as fits before the
      end of the storage, the rest from cell 0. */
  function RingWrite(buf: string, start: nat, d: string): (r: string)
    requires start < |buf| && |d| <= |buf|
    ensures |r| == |buf|
  {
    var left := |buf| - start;
    if |d| <= left then Overwrite(buf, start, d)
    else Overwrite(Overwrite(buf, start, d[..left]), 0, d[left..])
  }

  /** Pushes as much of `data` as the free capacity allows; the rest is
      dropped.  The accepted bytes are copied into the ring from the write
      cursor's cell. */
  function Push(s: Stream, data: string): (r: Stream)
    requires Valid(s)
    ensures Valid(r)
    ensures r.writerPos == s.writerPos + Accepted(s, data)
    ensures r.readerPos == s.readerPos
    ensures r.capacity == s.capacity && r.closed == s.closed && r.error == s.error
  {
    var n := Accepted(s, data);
    var start := Cell(|s.buffer|, s.writerPos);
    s.(buffer := RingWrite(s.buffer, start, data[..n]), writerPos := s.writerPos + n)
  }

  /** The push with the wrapping branch's first copy at cell `writerPos`
      (the unreduced cursor) instead of the write cursor's cell
      `Cell(N, writerPos)`.  `None` stands for a copy past the end of the
      storage. */
  function PushAsWritten(s: Stream, data: string): (r: Option<Stream>)
    requires Valid(s)
    ensures r.Some? ==> Valid(r.value) && r.value.writerPos == s.writerPos + Accepted(s, data)
    ensures r.Some? ==> r.value.(buffer := s.buffer, writerPos := s.writerPos) == s
  {
    var n := Accepted(s, data);
    var N := |s.buffer|;
    var start := Cell(|s.buffer|, s.writerPos);
    var left := N - start;
    if n <= left then
      Some(s.(buffer := Overwrite(s.buffer, start, data[..n]), writerPos := s.writerPos + n))
    else if s.writerPos + left <= N then
      Some(s.(buffer := Overwrite(Overwrite(s.buffer, s.writerPos, data[..left]), 0, data[left..n]),
              writerPos := s.writerPos + n))
    else
      None
  }

  // ----- Reader -----

  /** The longest run of buffered bytes that is contiguous in storage,
      starting at the read cursor's cell. */
  function Peek(s: Stream): (p: string)
    requires Valid(s)
    ensures |p| <= |Contents(s)|
    ensures |Contents(s)| > 0 ==> |p| > 0
  {
    var start := Cell(|s.buffer|, s.readerPos);
    var buffered := s.writerPos - s.readerPos;
    var run := if buffered <= |s.buffer| - start then buffered else |s.buffer| - start;
    s.buffer[start..start + run]
  }

  /** Removes up to `len` bytes from the front; a request for more than is
      buffered removes everything. */
  function Pop(s: Stream, len: nat): (r: Stream)
    requires Valid(s)
    ensures Valid(r)
    ensures BytesPopped(r) == BytesPopped(s) + (if len <= |Contents(s)| then len else |Contents(s)|)
    ensures r.writerPos == s.writerPos && r.buffer == s.buffer
    ensures r.capacity == s.capacity && r.closed == s.closed && r.error == s.error
  {
    var buffered := s.writerPos - s.readerPos;
    s.(readerPos := s.readerPos + (if len <= buffered then len else buffered))
  }

  /** Is the stream closed and fully popped? */
  function IsFinished(s: Stream): (b: bool)
    requires Valid(s)
    ensures b <==> IsClosed(s) && |Contents(s)| == 0
  {
    s.closed && s.writerPos == s.readerPos
  }

  /** Number of bytes pushed and not yet popped. */
  function BytesBuffered(s: Stream): (n: nat)
    requires Valid(s)
    ensures n == BytesPushed(s) - BytesPopped(s)
    ensures n == |Contents(s)| && n <= s.capacity
  {
    s.writerPos - s.readerPos
  }

  /** Total number of bytes cumulatively popped. */
  function BytesPopped(s: Stream): nat {
    s.readerPos
  }

  /** Reads up to `len` bytes by peeking and popping until enough has been
      taken or nothing is left. */
  function Read(s: Stream, len: nat): (r: (Stream, string))
    requires Valid(s)
    ensures Valid(r.0)
    ensures |r.1| == (if len <= |Contents(s)| then len else |Contents(s)|)
    ensures r.1 == Contents(s)[..|r.1|]
    ensures r.0 == Pop(s, |r.1|)
    decreases len
  {
    if len == 0 || s.writerPos == s.readerPos then (s, [])
    else
      var p := Peek(s);
      var chunk := if len <= |p| then p[..len] else p;
      var rest := Read(Pop(s, |chunk|), len - |chunk|);
      ReadStep(s, len, chunk, rest);
      (rest.0, chunk + rest.1)
  }

  /** One round of `Read`: a chunk from the front of the peeked run, then
      whatever the rest of the read takes from the popped stream. */
  lemma ReadStep(s: Stream, len: nat, chunk: string, rest: (Stream, string))
    requires Valid(s) && 0 < len && s.writerPos != s.readerPos
    requires chunk == (if len <= |Peek(s)| then Peek(s)[..len] else Peek(s))
    requires Valid(rest.0)
    requires var t := Pop(s, |chunk|);
      && |rest.1| == (if len - |chunk| <= |Contents(t)| then len - |chunk| else |Contents(t)|)
      && rest.1 == Contents(t)[..|rest.1|]
      && rest.0 == Pop(t, |rest.1|)
    ensures |chunk + rest.1| == (if len <= |Contents(s)| then len else |Contents(s)|)
    ensures chunk + rest.1 == Contents(s)[..|chunk + rest.1|]
    ensures rest.0 == Pop(s, |chunk + rest.1|)
  {
    PeekIsPrefix(s);
    PopContents(s, |chunk|);
    var c := Contents(s);
    assert chunk == c[..|chunk|];
    assert rest.1 == c[|chunk|..][..|rest.1|];
  }

  /** Drains the stream, collecting every buffered byte by repeated peek and pop. */
  method Drain(s: Stream) returns (out: string, r: Stream)
    requires Valid(s)
    ensures Valid(r) && out == Contents(s)
    ensures BytesBuffered(r) == 0 && BytesPopped(r) == BytesPushed(s)
  {
    out, r := [], s;
    while r.writerPos != r.readerPos
      invariant Valid(r) && r.writerPos == s.writerPos && r.buffer == s.buffer
      invariant out + Contents(r) == Contents(s)
      decreases r.writerPos - r.readerPos
    {
      var p := Peek(r);
      PeekIsPrefix(r);
      PopContents(r, |p|);
      out, r := out + p, Pop(r, |p|);
    }
  }

  // ----- Ring arithmetic -----

  lemma MulAtLeast(x: int, n: nat)
    requires x >= 1
    ensures x * n >= n
  {
  }

  lemma MulSub(q: int, q': int, n: int)
    ensures q * n - q' * n == (q - q') * n
  {
  }

  lemma MulSucc(q: int, n: int)
    ensures (q + 1) * n == q * n + n
  {
  }

  /** Division with remainder is unique. */
  lemma ModUnique(a: nat, q: nat, rem: nat, n: nat)
    requires n > 0 && rem < n && a == q * n + rem
    ensures a % n == rem
  {
    var q', r' := a / n, a % n;
    assert a == q' * n + r';
    MulSub(q, q', n);
    if q' < q {
      MulAtLeast(q - q', n);
    } else if q' > q {
      MulAtLeast(q' - q, n);
    }
  }

  /** `Cell` is the remainder of the position by the storage length. */
  lemma {:induction false} CellIsMod(n: nat, pos: nat)
    requires n > 0
    ensures Cell(n, pos) == pos % n
    decreases pos
  {
    if pos >= n {
      CellIsMod(n, pos - n);
      var q, r := (pos - n) / n, (pos - n) % n;
      assert pos - n == q * n + r;
      MulSucc(q, n);
      ModUnique(pos, q + 1, r, n);
    } else {
      ModUnique(pos, 0, pos, n);
    }
  }

  /** Position `pos + k` occupies the cell `k` cells after `pos`'s cell. */
  lemma {:induction false} CellAdvance(n: nat, pos: nat, k: nat)
    requires n > 0 && k < n
    ensures Cell(n, pos + k) == RingCell(Cell(n, pos), k, n)
    decreases pos
  {
    if pos >= n {
      CellAdvance(n, pos - n, k);
      assert pos + k - n == (pos - n) + k;
    } else if pos + k >= n {
      assert Cell(n, pos + k) == Cell(n, pos + k - n);
    }
  }

  /** Positions one full lap apart share a cell. */
  lemma CellLap(n: nat, pos: nat)
    requires n > 0
    ensures Cell(n, pos + n) == Cell(n, pos)
  {
  }

  /** A position is its own cell exactly during the first lap. */
  lemma CellFirstLap(n: nat, pos: nat)
    requires n > 0
    ensures Cell(n, pos) == pos <==> pos < n
  {
  }

  // ----- Properties -----

  /** Buffered byte `i` is the byte in the cell of position `readerPos + i`. */
  lemma ContentsAt(s: Stream, i: nat)
    requires Valid(s) && i < |Contents(s)|
    ensures Contents(s)[i] == s.buffer[Cell(|s.buffer|, s.readerPos + i)]
  {
  }

  /** Cell `RingCell(start, k, N)` after a ring write: byte `k` of `d` if
      `k < |d|`, the old content otherwise. */
  lemma RingWriteAt(buf: string, start: nat, d: string, k: nat)
    requires start < |buf| && |d| <= |buf| && k < |buf|
    ensures RingWrite(buf, start, d)[RingCell(start, k, |buf|)]
      == if k < |d| then d[k] else buf[RingCell(start, k, |buf|)]
  {
    var N := |buf|;
    var left := N - start;
    var c := RingCell(start, k, N);
    if |d| <= left {
      OverwriteAt(buf, start, d, c);
    } else {
      var b1 := Overwrite(buf, start, d[..left]);
      OverwriteAt(b1, 0, d[left..], c);
      OverwriteAt(buf, start, d[..left], c);
    }
  }

  /** Byte `i` of the accepted prefix lands in the cell of position
      `writerPos + i`, whether or not the copy wraps. */
  lemma PushPlacesBytes(s: Stream, data: string)
    requires Valid(s)
    ensures forall p :: s.writerPos <= p < s.writerPos + Accepted(s, data) ==>
      Push(s, data).buffer[Cell(|s.buffer|, p)] == data[p - s.writerPos]
  {
    forall p | s.writerPos <= p < s.writerPos + Accepted(s, data)
      ensures Push(s, data).buffer[Cell(|s.buffer|, p)] == data[p - s.writerPos]
    {
      PushPlacesByte(s, data, p);
    }
  }

  /** One accepted byte of a push, at position `p`. */
  lemma PushPlacesByte(s: Stream, data: string, p: nat)
    requires Valid(s) && s.writerPos <= p < s.writerPos + Accepted(s, data)
    ensures Push(s, data).buffer[Cell(|s.buffer|, p)] == data[p - s.writerPos]
  {
    PushWrites(s, data);
    RingWriteFrom(s.buffer, s.writerPos, data[..Accepted(s, data)], p - s.writerPos);
  }

  /** The storage after a push is the ring write of the accepted prefix from
      the write cursor's cell. */
  lemma PushWrites(s: Stream, data: string)
    requires Valid(s)
    ensures Accepted(s, data) <= |s.buffer|
    ensures Push(s, data).buffer == RingWrite(s.buffer, Cell(|s.buffer|, s.writerPos), data[..Accepted(s, data)])
  {
  }

  /** A ring write from the cell of position `w` puts byte `k` of `d` into
      the cell of position `w + k`. */
  lemma RingWriteFrom(buf: string, w: nat, d: string, k: nat)
    requires 0 < |buf| && |d| <= |buf| && k < |buf|
    ensures RingWrite(buf, Cell(|buf|, w), d)[Cell(|buf|, w + k)]
      == if k < |d| then d[k] else buf[Cell(|buf|, w + k)]
  {
    RingWriteAt(buf, Cell(|buf|, w), d, k);
    CellAdvance(|buf|, w, k);
  }

  /** A push leaves alone the cells of the positions after the accepted
      prefix, up to one lap ahead of the write cursor. */
  lemma PushKeepsOthers(s: Stream, data: string)
    requires Valid(s)
    ensures forall p :: s.writerPos + Accepted(s, data) <= p < s.writerPos + |s.buffer| ==>
      Push(s, data).buffer[Cell(|s.buffer|, p)] == s.buffer[Cell(|s.buffer|, p)]
  {
    forall p | s.writerPos + Accepted(s, data) <= p < s.writerPos + |s.buffer|
      ensures Push(s, data).buffer[Cell(|s.buffer|, p)] == s.buffer[Cell(|s.buffer|, p)]
    {
      PushKeepsByte(s, data, p);
    }
  }

  /** One cell a push leaves alone, at position `p`. */
  lemma PushKeepsByte(s: Stream, data: string, p: nat)
    requires Valid(s) && s.writerPos + Accepted(s, data) <= p < s.writerPos + |s.buffer|
    ensures Push(s, data).buffer[Cell(|s.buffer|, p)] == s.buffer[Cell(|s.buffer|, p)]
  {
    PushWrites(s, data);
    RingWriteFrom(s.buffer, s.writerPos, data[..Accepted(s, data)], p - s.writerPos);
  }

  /** A push appends exactly the accepted prefix to the buffered bytes:
      `min(|data|, AvailableCapacity(s))` bytes, in order; nothing else moves. */
  lemma PushContents(s: Stream, data: string)
    requires Valid(s)
    ensures Contents(Push(s, data)) == Contents(s) + data[..Accepted(s, data)]
  {
    var r := Push(s, data);
    var n := Accepted(s, data);
    forall i | 0 <= i < |Contents(r)|
      ensures Contents(r)[i] == (Contents(s) + data[..n])[i]
    {
      PushContentsAt(s, data, i);
    }
  }

  /** Buffered byte `i` after a push: an old byte below the old buffered
      length, an accepted byte from there on. */
  lemma PushContentsAt(s: Stream, data: string, i: nat)
    requires Valid(s) && i < |Contents(Push(s, data))|
    ensures Contents(Push(s, data))[i] == (Contents(s) + data[..Accepted(s, data)])[i]
  {
    var b := |Contents(s)|;
    if i < b {
      PushKeepsBuffered(s, data, i);
      assert (Contents(s) + data[..Accepted(s, data)])[i] == Contents(s)[i];
    } else {
      PushAppendsAt(s, data, i - b);
      assert (Contents(s) + data[..Accepted(s, data)])[i] == data[i - b];
    }
  }

  /** A push leaves every buffered byte where it was. */
  lemma PushKeepsBuffered(s: Stream, data: string, i: nat)
    requires Valid(s) && i < |Contents(s)|
    ensures i < |Contents(Push(s, data))|
    ensures Contents(Push(s, data))[i] == Contents(s)[i]
  {
    var r := Push(s, data);
    var N := |s.buffer|;
    var p := s.readerPos + i;
    ContentsAt(r, i);
    ContentsAt(s, i);
    // p lies one lap before a position the push leaves alone
    PushKeepsByte(s, data, p + N);
    CellLap(N, p);
  }

  /** Accepted byte `k` follows the bytes buffered before the push. */
  lemma PushAppendsAt(s: Stream, data: string, k: nat)
    requires Valid(s) && k < Accepted(s, data)
    ensures |Contents(s)| + k < |Contents(Push(s, data))|
    ensures Contents(Push(s, data))[|Contents(s)| + k] == data[k]
  {
    var r := Push(s, data);
    ContentsAt(r, |Contents(s)| + k);
    PushPlacesByte(s, data, s.writerPos + k);
  }

  /** An empty push leaves the whole state unchanged. */
  lemma PushEmpty(s: Stream)
    requires Valid(s)
    ensures Push(s, []) == s
  {
    var r := Push(s, []);
    assert r.buffer == s.buffer;
  }

  /** The push as written goes wrong exactly when the copy wraps and the
      write cursor has completed a lap of the storage; otherwise it agrees
      with `Push`. */
  lemma PushAsWrittenFaults(s: Stream, data: string)
    requires Valid(s)
    ensures PushAsWritten(s, data).None? <==>
      Accepted(s, data) > |s.buffer| - Cell(|s.buffer|, s.writerPos) && s.writerPos >= |s.buffer|
    ensures PushAsWritten(s, data).Some? ==> PushAsWritten(s, data).value == Push(s, data)
  {
    var n := Accepted(s, data);
    var N := |s.buffer|;
    var start := Cell(|s.buffer|, s.writerPos);
    var left := N - start;
    CellFirstLap(|s.buffer|, s.writerPos);
    assert s.writerPos + left <= N <==> s.writerPos < N;
    if n > left {
      assert data[..n][..left] == data[..left];
      assert data[..n][left..] == data[left..n];
    }
  }

  /** Only the write cursor's cell keeps the first part of a wrapping copy in
      order: byte `i` of it reaches the cell of position `writerPos + i` for
      every `i` before the end of the storage exactly when the copy starts at
      the write cursor's cell. */
  lemma WrapOffsetUnique(s: Stream, off: nat)
    requires Valid(s)
    ensures (forall p :: s.writerPos <= p < s.writerPos + (|s.buffer| - Cell(|s.buffer|, s.writerPos)) ==>
               off + (p - s.writerPos) == Cell(|s.buffer|, p))
            <==> off == Cell(|s.buffer|, s.writerPos)
  {
    var N := |s.buffer|;
    var start := Cell(|s.buffer|, s.writerPos);
    if off == start {
      forall p | s.writerPos <= p < s.writerPos + (N - start)
        ensures off + (p - s.writerPos) == Cell(|s.buffer|, p)
      {
        CellAdvance(|s.buffer|, s.writerPos, p - s.writerPos);
      }
    } else {
      assert Cell(|s.buffer|, s.writerPos) == start;
    }
  }

  /** The push as written faults on a reachable stream of every capacity
      `c >= 2`: after `4c - 1` bytes have been pushed and popped the write
      cursor sits on the last cell of its second lap, so a two-byte push must
      wrap; the push as written then copies to cell `4c - 1` of `2c`, while
      `Push` stores both bytes in order. */
  lemma AsWrittenOverrunExample(c: nat, full: string, short: string, two: string)
    requires c >= 2 && |full| == c && |short| == c - 1 && |two| == 2
    ensures var s := Pop(Push(Pop(Push(Pop(Push(Pop(Push(New(c), full), c), full), c), full), c), short), c - 1);
      && s.writerPos == 4 * c - 1 && s.writerPos >= |s.buffer|
      && PushAsWritten(s, two).None?
      && Contents(Push(s, two)) == two
  {
    var s1 := Pop(Push(New(c), full), c);
    assert s1.writerPos == c && s1.readerPos == c;
    var s2 := Pop(Push(s1, full), c);
    assert s2.writerPos == 2 * c && s2.readerPos == 2 * c;
    var s3 := Pop(Push(s2, full), c);
    assert s3.writerPos == 3 * c && s3.readerPos == 3 * c;
    var s := Pop(Push(s3, short), c - 1);
    assert s.writerPos == 4 * c - 1 && s.readerPos == 4 * c - 1;
    assert Accepted(s, two) == 2;
    assert Cell(|s.buffer|, 4 * c - 1) == Cell(|s.buffer|, 2 * c - 1) == 2 * c - 1;
    PushAsWrittenFaults(s, two);
    PushContents(s, two);
    assert two[..2] == two;
  }

  /** The peeked run is a prefix of the buffered bytes, and it stops short of
      the whole buffered content only where it reaches the end of the storage. */
  lemma PeekIsPrefix(s: Stream)
    requires Valid(s)
    ensures Peek(s) == Contents(s)[..|Peek(s)|]
    ensures |Peek(s)| == |Contents(s)| || Cell(|s.buffer|, s.readerPos) + |Peek(s)| == |s.buffer|
  {
    var p := Peek(s);
    var start := Cell(|s.buffer|, s.readerPos);
    forall i | 0 <= i < |p|
      ensures p[i] == Contents(s)[i]
    {
      CellAdvance(|s.buffer|, s.readerPos, i);
    }
  }

  /** Popping removes bytes from the front of the buffered content. */
  lemma PopContents(s: Stream, len: nat)
    requires Valid(s)
    ensures len <= |Contents(s)| ==> Contents(Pop(s, len)) == Contents(s)[len..]
    ensures len > |Contents(s)| ==> Contents(Pop(s, len)) == []
  {
    var r := Pop(s, len);
    if len <= |Contents(s)| {
      forall i | 0 <= i < |Contents(r)|
        ensures Contents(r)[i] == Contents(s)[len + i]
      {
        assert r.readerPos + i == s.readerPos + (len + i);
      }
    }
  }

  /** Round trip: bytes pushed into a fresh stream that has room for them all
      come back out unchanged and in order when the stream is drained. */
  method RoundTrip(capacity: nat, data: string) returns (out: string)
    requires capacity > 0 && |data| <= capacity
    ensures out == data
  {
    var s := Push(New(capacity), data);
    PushContents(New(capacity), data);
    var r;
    out, r := Drain(s);
  }

  /** A new stream is open, and only `Close` changes that: pushing,
      popping and an error leave the closed flag as it was. */
  lemma ClosedStaysClosed(s: Stream, data: string, len: nat)
    requires Valid(s)
    ensures !IsClosed(New(s.capacity))
    ensures IsClosed(Close(s))
    ensures IsClosed(Push(s, data)) == IsClosed(s)
    ensures IsClosed(Pop(s, len)) == IsClosed(s)
    ensures IsClosed(SetError(s)) == IsClosed(s)
  {
  }

  /** The count of bytes pushed starts at zero, grows by exactly what each
      push accepts, and nothing else moves it. */
  lemma BytesPushedCounts(s: Stream, data: string, len: nat)
    requires Valid(s)
    ensures BytesPushed(New(s.capacity)) == 0
    ensures BytesPushed(Push(s, data)) == BytesPushed(s) + Accepted(s, data)
    ensures BytesPushed(Pop(s, len)) == BytesPushed(s)
    ensures BytesPushed(Close(s)) == BytesPushed(s)
  {
  }

  /** The count of bytes popped starts at zero, grows by exactly what each
      pop removes from the buffered content, and nothing else moves it. */
  lemma BytesPoppedCounts(s: Stream, data: string, len: nat)
    requires Valid(s)
    ensures BytesPopped(New(s.capacity)) == 0
    ensures BytesPopped(Pop(s, len)) == BytesPopped(s) + (|Contents(s)| - |Contents(Pop(s, len))|)
    ensures BytesPopped(Push(s, data)) == BytesPopped(s)
    ensures BytesPopped(Close(s)) == BytesPopped(s)
  {
  }

  /** Closing is sticky for the writer and finishes the reader exactly when
      everything has been popped. */
  lemma CloseFinishes(s: Stream)
    requires Valid(s)
    ensures IsClosed(Close(s))
    ensures IsFinished(Close(s)) <==> BytesBuffered(s) == 0
    ensures IsFinished(s) <==> IsClosed(s) && |Contents(s)| == 0
  {
  }
}

=== FILE: send_connect.dfy ===
/** The connection-phase scenarios of the sender, proved for every initial
    sequence number.  Each lemma replays one scenario: the application's
    pushes, the receiver's messages, and what the sender must have sent,
    the next sequence number it reports, and the sequence numbers in flight.

    A scenario's `isn + k` is the 32-bit wrapped sum, `Wrap(k, isn)`.  The
    stream capacity, the payload limit and the window carried by a bare
    acknowledgment are parameters; each lemma requires only what its
    scenario needs of them.
 */
module SendConnect {
  import opened Wrappers
  import opened Wrap32
  import opened TcpSender
  import ByteStream

  /** An acknowledgment of `ackno` advertising `window`. */
  function Ack(ackno: U32, window: U16): ReceiverMessage {
    ReceiverMessage(Some(ackno), window, false)
  }

  /** A window advertisement without an acknowledgment. */
  function WindowOnly(window: U16): ReceiverMessage {
    ReceiverMessage(None, window, false)
  }

  /** Delivers a receiver message and, if `push`, lets the sender send. */
  function Deliver(s: Sender, msg: ReceiverMessage, push: bool): (r: (Sender, seq<Segment>))
    requires Inv(s)
    ensures Inv(r.0)
    ensures !push ==> r.1 == []
  {
    var t := Receive(s, msg);
    if push then MakeSegments(t) else (t, [])
  }

  /** The sender emits exactly the framed segment and then stops. */
  lemma SendsOne(s: Sender)
    requires CanSend(s) && MakeSegments(Emit(s)) == (Emit(s), [])
    ensures MakeSegments(s) == (Emit(s), [Frame(s).1])
  {
    MakeSegmentsSends(s);
    assert [Frame(s).1] + [] == [Frame(s).1];
  }

  /** A fresh sender that the receiver has told `window`: the first push of
      `data` (closing the stream if `close`) sends one segment, the SYN with
      all of `data`, and with FIN too if the stream is closed and the FIN
      still fits in the window. */
  lemma FirstPush(isn: U32, capacity: nat, maxPayload: nat, window: U16, data: string, close: bool)
    requires capacity > 0 && |data| <= capacity && |data| <= maxPayload
    requires 1 + |data| <= (if window == 0 then 1 else window)
    ensures var fin := close && 1 + |data| < (if window == 0 then 1 else window);
      var p := Push(Init(isn, capacity, maxPayload).(window := window), data, close);
      && p.1 == [Segment(isn, true, data, fin)]
      && p.0.outstanding == [Outstanding(0, p.1[0])]
      && p.0.nextSeqno == 1 + |data| + (if fin then 1 else 0)
      && InFlight(p.0) == p.0.nextSeqno
      && !HasError(p.0) && p.0.synSent && p.0.finSent == fin
      && ByteStream.BytesBuffered(p.0.input) == 0 && ByteStream.IsClosed(p.0.input) == close
  {
    var s0 := Init(isn, capacity, maxPayload).(window := window);
    var pushed := ByteStream.Push(s0.input, data);
    var input := if close then ByteStream.Close(pushed) else pushed;
    var u := s0.(input := input);
    assert Inv(u);
    ByteStream.PushContents(s0.input, data);
    FreshFrame(u, data);
    var t := Emit(u);
    if !t.finSent && InFlight(t) < EffectiveWindow(t) {
      NothingToSend(t);
    }
    SendsOne(u);
  }

  /** The first segment of a sender whose stream holds exactly `data`, all of
      which fits in the window after the SYN and under the payload limit. */
  lemma FreshFrame(u: Sender, data: string)
    requires Inv(u) && !HasError(u) && !u.synSent && u.outstanding == []
    requires ByteStream.Contents(u.input) == data && |data| <= u.maxPayload
    requires 1 + |data| <= EffectiveWindow(u)
    ensures var fin := ByteStream.IsClosed(u.input) && 1 + |data| < EffectiveWindow(u);
      && CanSend(u)
      && Frame(u).1 == Segment(u.isn, true, data, fin)
      && ByteStream.BytesBuffered(Frame(u).0) == 0
      && ByteStream.IsClosed(Frame(u).0) == ByteStream.IsClosed(u.input)
      && !Frame(u).0.error
  {
    var f := Frame(u);
    assert u.nextSeqno == 0;
    assert f.1.payload == data;
    ByteStream.PopContents(u.input, |data|);
    assert ByteStream.IsFinished(f.0) == ByteStream.IsClosed(u.input);
  }

  /** "SYN sent after first push": an empty push from a fresh sender sends a
      bare SYN at `isn`; one sequence number is then in flight. */
  lemma SynSentAfterFirstPush(isn: U32, capacity: nat, maxPayload: nat)
    requires capacity > 0
    ensures var p := Push(Init(isn, capacity, maxPayload), [], false);
      && p.1 == [Segment(isn, true, [], false)]
      && Wrap(p.0.nextSeqno, isn) == Wrap(1, isn)
      && InFlight(p.0) == 1 && !HasError(p.0)
  {
    FirstPush(isn, capacity, maxPayload, 1, [], false);
    assert Init(isn, capacity, maxPayload).(window := 1) == Init(isn, capacity, maxPayload);
  }

  /** An empty push that does not close only lets the sender send. */
  lemma EmptyPush(s: Sender)
    requires Inv(s)
    ensures Push(s, [], false) == MakeSegments(s)
  {
    ByteStream.PushEmpty(s.input);
    assert s.(input := ByteStream.Push(s.input, [])) == s;
  }

  /** After the SYN is acknowledged, a stream holding exactly `data`, all of
      which fits in the window and under the payload limit, is sent as one
      segment right after the SYN's sequence number. */
  lemma DataFrame(u: Sender, data: string)
    requires Inv(u) && !HasError(u) && u.synSent && !u.finSent && u.outstanding == []
    requires ByteStream.Contents(u.input) == data && !ByteStream.IsClosed(u.input)
    requires 0 < |data| <= u.maxPayload && |data| <= EffectiveWindow(u)
    ensures && CanSend(u)
            && Frame(u).1 == Segment(Wrap(u.nextSeqno, u.isn), false, data, false)
            && ByteStream.BytesBuffered(Frame(u).0) == 0
            && !ByteStream.IsClosed(Frame(u).0) && !Frame(u).0.error
  {
    var f := Frame(u);
    assert f.1.payload == data;
    ByteStream.PopContents(u.input, |data|);
  }

  /** The state of the first scenarios after the SYN went out. */
  lemma SynOut(isn: U32, capacity: nat, maxPayload: nat)
    requires capacity > 0
    ensures var p := Push(Init(isn, capacity, maxPayload), [], false);
      && Inv(p.0) && p.0.isn == isn && p.0.maxPayload == maxPayload
      && p.1 == [Segment(isn, true, [], false)]
      && p.0.outstanding == [Outstanding(0, p.1[0])] && FirstUnacked(p.0) == 0
      && p.0.nextSeqno == 1 && InFlight(p.0) == 1 && Settled(p.0)
      && ByteStream.AvailableCapacity(p.0.input) == capacity
  {
    FirstPush(isn, capacity, maxPayload, 1, [], false);
    assert Init(isn, capacity, maxPayload).(window := 1) == Init(isn, capacity, maxPayload);
  }

  /** A connected sender with nothing left to send: the SYN is out, the FIN
      is not, and the open stream holds no byte. */
  predicate Settled(s: Sender) {
    && Inv(s) && !HasError(s) && s.synSent && !s.finSent
    && ByteStream.BytesBuffered(s.input) == 0 && !ByteStream.IsClosed(s.input)
  }

  /** A settled sender whose every segment is acknowledged stays silent with
      nothing in flight. */
  lemma AckAllQuiet(s: Sender, window: U16)
    requires Settled(s)
    ensures var a := Deliver(s, Ack(Wrap(s.nextSeqno, s.isn), window), true);
      && a.1 == [] && Settled(a.0) && a.0.outstanding == [] && InFlight(a.0) == 0
      && a.0.nextSeqno == s.nextSeqno && a.0.isn == s.isn && a.0.maxPayload == s.maxPayload
      && a.0.window == window && a.0.input == s.input
  {
    var msg := Ack(Wrap(s.nextSeqno, s.isn), window);
    ReceiveAcksAll(s, msg);
    NothingToSend(Receive(s, msg));
  }

  /** "SYN acked test": acknowledging `isn + 1` retires the SYN; nothing
      more is sent and nothing is in flight. */
  lemma SynAcked(isn: U32, capacity: nat, maxPayload: nat, window: U16)
    requires capacity > 0
    ensures var p := Push(Init(isn, capacity, maxPayload), [], false);
      var a := Deliver(p.0, Ack(Wrap(1, isn), window), true);
      && p.1 == [Segment(isn, true, [], false)]
      && Wrap(p.0.nextSeqno, isn) == Wrap(1, isn) && InFlight(p.0) == 1
      && a.1 == [] && InFlight(a.0) == 0 && Wrap(a.0.nextSeqno, isn) == Wrap(1, isn)
  {
    SynOut(isn, capacity, maxPayload);
    AckAllQuiet(Push(Init(isn, capacity, maxPayload), [], false).0, window);
  }

  /** "SYN -> wrong ack test": acknowledging `isn` itself covers nothing; the
      SYN stays in flight and nothing more is sent. */
  lemma SynWrongAck(isn: U32, capacity: nat, maxPayload: nat, window: U16)
    requires capacity > 0
    ensures var p := Push(Init(isn, capacity, maxPayload), [], false);
      var a := Deliver(p.0, Ack(isn, window), true);
      && p.1 == [Segment(isn, true, [], false)]
      && Wrap(p.0.nextSeqno, isn) == Wrap(1, isn) && InFlight(p.0) == 1
      && Wrap(a.0.nextSeqno, isn) == Wrap(1, isn) && a.1 == [] && InFlight(a.0) == 1
  {
    SynOut(isn, capacity, maxPayload);
    var p := Push(Init(isn, capacity, maxPayload), [], false);
    assert Wrap(FirstUnacked(p.0), isn) == isn;
    var r := Receive(p.0, Ack(isn, window));
    ReceiveAcksNone(p.0, Ack(isn, window));
    NothingToSend(r);
  }

  /** After everything sent is acknowledged, a push of `data` that fits the
      stream, the payload limit and the window goes out as one segment at
      `nextSeqno`. */
  lemma DataAfterAck(s: Sender, data: string)
    requires Settled(s) && s.outstanding == []
    requires 0 < |data| <= ByteStream.AvailableCapacity(s.input)
    requires |data| <= s.maxPayload && |data| <= EffectiveWindow(s)
    ensures var d := Push(s, data, false);
      && d.1 == [Segment(Wrap(s.nextSeqno, s.isn), false, data, false)]
      && Settled(d.0) && d.0.nextSeqno == s.nextSeqno + |data| && InFlight(d.0) == |data|
      && d.0.isn == s.isn
  {
    var u := s.(input := ByteStream.Push(s.input, data));
    ByteStream.PushContents(s.input, data);
    assert Inv(u);
    DataFrame(u, data);
    var t := Emit(u);
    if InFlight(t) < EffectiveWindow(t) {
      NothingToSend(t);
    }
    SendsOne(u);
  }

  /** The first half of "SYN acked, data": SYN, its acknowledgment, then the
      data segment. */
  lemma SynAckedData(isn: U32, capacity: nat, maxPayload: nat, window: U16, data: string)
    requires capacity > 0 && 0 < |data| <= capacity && |data| <= maxPayload && |data| <= window
    ensures var p := Push(Init(isn, capacity, maxPayload), [], false);
      var a := Deliver(p.0, Ack(Wrap(1, isn), window), true);
      var d := Push(a.0, data, false);
      && a.1 == [] && InFlight(a.0) == 0
      && d.1 == [Segment(Wrap(1, isn), false, data, false)]
      && Settled(d.0) && d.0.nextSeqno == 1 + |data| && d.0.isn == isn && InFlight(d.0) == |data|
  {
    SynOut(isn, capacity, maxPayload);
    var p := Push(Init(isn, capacity, maxPayload), [], false);
    AckAllQuiet(p.0, window);
    var a := Deliver(p.0, Ack(Wrap(1, isn), window), true);
    assert ByteStream.AvailableCapacity(a.0.input) == capacity;
    DataAfterAck(a.0, data);
  }

  /** "SYN acked, data": once the SYN is acknowledged, pushed data goes out
      in one segment at `isn + 1`, and acknowledging its end retires it. */
  lemma SynAckedThenData(isn: U32, capacity: nat, maxPayload: nat, window: U16, window': U16, data: string)
    requires capacity > 0 && 0 < |data| <= capacity && |data| <= maxPayload && |data| <= window
    ensures var p := Push(Init(isn, capacity, maxPayload), [], false);
      var a := Deliver(p.0, Ack(Wrap(1, isn), window), true);
      var d := Push(a.0, data, false);
      var b := Deliver(d.0, Ack(Wrap(1 + |data|, isn), window'), true);
      && p.1 == [Segment(isn, true, [], false)]
      && Wrap(p.0.nextSeqno, isn) == Wrap(1, isn) && InFlight(p.0) == 1
      && a.1 == [] && InFlight(a.0) == 0
      && d.1 == [Segment(Wrap(1, isn), false, data, false)]
      && Wrap(d.0.nextSeqno, isn) == Wrap(1 + |data|, isn) && InFlight(d.0) == |data|
      && b.1 == [] && InFlight(b.0) == 0 && Wrap(b.0.nextSeqno, isn) == Wrap(1 + |data|, isn)
  {
    SynOut(isn, capacity, maxPayload);
    SynAckedData(isn, capacity, maxPayload, window, data);
    var a := Deliver(Push(Init(isn, capacity, maxPayload), [], false).0, Ack(Wrap(1, isn), window), true);
    AckAllQuiet(Push(a.0, data, false).0, window');
  }

  /** "Incoming TCPReceiverMessage arrives first": a window advertisement
      before any push lets the sender send its SYN at once; the empty push
      that follows sends nothing more. */
  lemma WindowArrivesFirst(isn: U32, capacity: nat, maxPayload: nat)
    requires capacity > 0
    ensures var a := Deliver(Init(isn, capacity, maxPayload), WindowOnly(20), true);
      var p := Push(a.0, [], false);
      && a.1 + p.1 == [Segment(isn, true, [], false)]
      && Wrap(p.0.nextSeqno, isn) == Wrap(1, isn) && InFlight(p.0) == 1
  {
    var s := Init(isn, capacity, maxPayload);
    ReceiveWindowOnly(s, WindowOnly(20));
    assert Receive(s, WindowOnly(20)) == s.(window := 20);
    FirstPush(isn, capacity, maxPayload, 20, [], false);
    EmptyPush(s.(window := 20));
    var a := Deliver(s, WindowOnly(20), true);
    EmptyPush(a.0);
    NothingToSend(a.0);
  }

  /** "Incoming TCPReceiverMessage arrives first II": a window advertisement
      delivered without sending, then an empty push: a bare SYN, no FIN. */
  lemma WindowArrivesFirstNoPush(isn: U32, capacity: nat, maxPayload: nat)
    requires capacity > 0
    ensures var a := Deliver(Init(isn, capacity, maxPayload), WindowOnly(1024), false);
      var p := Push(a.0, [], false);
      && a.1 == [] && p.1 == [Segment(isn, true, [], false)]
      && Wrap(p.0.nextSeqno, isn) == Wrap(1, isn) && InFlight(p.0) == 1 && !HasError(p.0)
  {
    var s := Init(isn, capacity, maxPayload);
    ReceiveWindowOnly(s, WindowOnly(1024));
    assert Receive(s, WindowOnly(1024)) == s.(window := 1024);
    FirstPush(isn, capacity, maxPayload, 1024, [], false);
  }

  /** "Incoming TCPReceiverMessage arrives first, with data to send": the
      SYN carries all of the data. */
  lemma WindowFirstWithData(isn: U32, capacity: nat, maxPayload: nat, data: string)
    requires capacity > 0 && |data| <= capacity && |data| <= maxPayload && 1 + |data| <= 1024
    ensures var a := Deliver(Init(isn, capacity, maxPayload), WindowOnly(1024), false);
      var p := Push(a.0, data, false);
      && p.1 == [Segment(isn, true, data, false)]
      && Wrap(p.0.nextSeqno, isn) == Wrap(1 + |data|, isn) && InFlight(p.0) == 1 + |data|
      && !HasError(p.0)
  {
    var s := Init(isn, capacity, maxPayload);
    ReceiveWindowOnly(s, WindowOnly(1024));
    assert Receive(s, WindowOnly(1024)) == s.(window := 1024);
    FirstPush(isn, capacity, maxPayload, 1024, data, false);
  }

  /** "Incoming TCPReceiverMessage arrives first, with data and closed
      input": one segment with SYN, all of the data and FIN. */
  lemma WindowFirstWithDataAndClose(isn: U32, capacity: nat, maxPayload: nat, data: string)
    requires capacity > 0 && |data| <= capacity && |data| <= maxPayload && 2 + |data| <= 1024
    ensures var a := Deliver(Init(isn, capacity, maxPayload), WindowOnly(1024), false);
      var p := Push(a.0, data, true);
      && p.1 == [Segment(isn, true, data, true)]
      && Wrap(p.0.nextSeqno, isn) == Wrap(1 + |data| + 1, isn) && InFlight(p.0) == 1 + |data| + 1
      && !HasError(p.0)
  {
    var s := Init(isn, capacity, maxPayload);
    ReceiveWindowOnly(s, WindowOnly(1024));
    assert Receive(s, WindowOnly(1024)) == s.(window := 1024);
    FirstPush(isn, capacity, maxPayload, 1024, data, true);
  }
}

=== FILE: sender.dfy ===
/** The sending half of the transport, reduced to its connection phase:
    SYN, data and FIN framing against the receiver's advertised window,
    sequence-number accounting, outstanding-segment bookkeeping and
    cumulative acknowledgments.  The retransmission timer is not modelled.

    Sequence numbers are kept as absolute indices (`nextSeqno`, segment
    starts); they are wrapped to 32 bits only where they meet the wire: the
    `seqno` of an emitted segment and the `ackno` of a received message.
 */
module TcpSender {
  import opened Wrappers
  import opened Wrap32
  import ByteStream

  /** A 16-bit unsigned value: the advertised window. */
  type U16 = x: nat | x < 0x1_0000

  /** An outbound segment as handed to the transport. */
  datatype Segment = Segment(seqno: U32, syn: bool, payload: string, fin: bool)

  /** The receiver's feedback: an optional acknowledgment, its window and a reset flag. */
  datatype ReceiverMessage = ReceiverMessage(ackno: Option<U32>, windowSize: U16, rst: bool)

  /** A sent, not yet fully acknowledged segment and the absolute index of its first sequence number. */
  datatype Outstanding = Outstanding(start: nat, seg: Segment)

  /** The sender's state.  `input` is the outbound stream the application
      writes into; `window` is the last window the receiver advertised. */
  datatype Sender = Sender(
    isn: U32,
    maxPayload: nat,
    input: ByteStream.Stream,
    nextSeqno: nat,
    outstanding: seq<Outstanding>,
    window: U16,
    synSent: bool,
    finSent: bool)

  /** How many sequence numbers a segment occupies: SYN and FIN one each,
      plus one per payload byte. */
  function SeqLen(seg: Segment): nat {
    (if seg.syn then 1 else 0) + |seg.payload| + (if seg.fin then 1 else 0)
  }

  /** Total sequence numbers occupied by a run of outstanding segments. */
  function SumLen(xs: seq<Outstanding>): nat {
    if |xs| == 0 then 0 else SeqLen(xs[0].seg) + SumLen(xs[1..])
  }

  /** Total sequence numbers occupied by a run of segments. */
  function TotalLen(segs: seq<Segment>): nat {
    if |segs| == 0 then 0 else SeqLen(segs[0]) + TotalLen(segs[1..])
  }

  /** The payload bytes of a run of segments, in order. */
  function Payloads(segs: seq<Segment>): string {
    if |segs| == 0 then [] else segs[0].payload + Payloads(segs[1..])
  }

  /** The outstanding entries for segments sent back to back from `from`. */
  function Track(from: nat, segs: seq<Segment>): (xs: seq<Outstanding>)
    ensures |xs| == |segs|
    decreases |segs|
  {
    if |segs| == 0 then [] else [Outstanding(from, segs[0])] + Track(from + SeqLen(segs[0]), segs[1..])
  }

  /** Tracking segments keeps their lengths: the entries for a run of
      segments occupy as many sequence numbers as the run itself. */
  lemma {:induction false} TrackLen(from: nat, segs: seq<Segment>)
    ensures SumLen(Track(from, segs)) == TotalLen(segs)
    decreases |segs|
  {
    if |segs| > 0 {
      var t := Track(from, segs);
      assert t[1..] == Track(from + SeqLen(segs[0]), segs[1..]);
      TrackLen(from + SeqLen(segs[0]), segs[1..]);
    }
  }

  /** The outstanding entries tile the range `[from, to)` with no gap or overlap. */
  predicate Contiguous(xs: seq<Outstanding>, from: nat, to: nat) {
    if |xs| == 0 then from == to
    else xs[0].start == from && Contiguous(xs[1..], from + SeqLen(xs[0].seg), to)
  }

  /** The lowest absolute sequence number not yet acknowledged. */
  function FirstUnacked(s: Sender): nat {
    if |s.outstanding| == 0 then s.nextSeqno else s.outstanding[0].start
  }

  /** Sequence numbers sent and not yet acknowledged. */
  function InFlight(s: Sender): nat {
    SumLen(s.outstanding)
  }

  /** The window used for sending: a zero window is treated as one, so that
      the sender keeps probing. */
  function EffectiveWindow(s: Sender): (w: nat)
    ensures w >= 1 && (s.window > 0 ==> w == s.window)
  {
    if s.window == 0 then 1 else s.window
  }

  /** Has the connection been reset by the peer? */
  function HasError(s: Sender): bool {
    s.input.error
  }

  /** An outstanding entry is well formed: it occupies at least one sequence
      number, its wire seqno wraps its start, and only the entry at 0 has SYN. */
  predicate Tracked(isn: U32, o: Outstanding) {
    && SeqLen(o.seg) > 0
    && o.seg.seqno == Wrap(o.start, isn)
    && (o.seg.syn ==> o.start == 0)
  }

  /** The sender's invariant: the outstanding entries tile the range from the
      first unacknowledged number to `nextSeqno`, and `nextSeqno` counts the
      SYN, every byte taken from the stream and the FIN. */
  predicate Inv(s: Sender) {
    && ByteStream.Valid(s.input)
    && Contiguous(s.outstanding, FirstUnacked(s), s.nextSeqno)
    && (forall i :: 0 <= i < |s.outstanding| ==> Tracked(s.isn, s.outstanding[i]))
    && s.nextSeqno == (if s.synSent then 1 else 0) + ByteStream.BytesPopped(s.input) + (if s.finSent then 1 else 0)
    && (s.finSent ==> s.synSent && ByteStream.IsClosed(s.input))
    && (!s.synSent ==> ByteStream.BytesPopped(s.input) == 0)
    && InFlight(s) < 0x1_0000
  }

  /** A fresh sender: nothing sent, window 1 until the receiver says otherwise. */
  function Init(isn: U32, capacity: nat, maxPayload: nat): (s: Sender)
    requires capacity > 0
    ensures Inv(s) && InFlight(s) == 0 && !HasError(s)
    ensures !s.synSent && !s.finSent && s.nextSeqno == 0
  {
    Sender(isn, maxPayload, ByteStream.New(capacity), 0, [], 1, false, false)
  }

  // ----- Segment generation -----

  function Min(a: nat, b: nat): nat {
    if a <= b then a else b
  }

  /** The next segment to send and the stream left after reading its
      payload: SYN if none has been sent, as many bytes as the window (less
      the SYN) and the payload limit allow, and FIN if the stream is then
      finished and one more sequence number still fits in the window. */
  function Frame(s: Sender): (r: (ByteStream.Stream, Segment))
    requires Inv(s) && InFlight(s) < EffectiveWindow(s)
    ensures ByteStream.Valid(r.0)
    ensures r.1.seqno == Wrap(s.nextSeqno, s.isn)
    ensures r.1.syn <==> !s.synSent
    ensures |r.1.payload| == Min(Min(s.maxPayload, EffectiveWindow(s) - InFlight(s) - (if r.1.syn then 1 else 0)),
                                 ByteStream.BytesBuffered(s.input))
    ensures r.1.payload == ByteStream.Contents(s.input)[..|r.1.payload|]
    ensures r.0 == ByteStream.Pop(s.input, |r.1.payload|)
    ensures r.1.fin <==> !s.finSent && ByteStream.IsFinished(r.0)
                         && InFlight(s) + (if r.1.syn then 1 else 0) + |r.1.payload| < EffectiveWindow(s)
    ensures InFlight(s) + SeqLen(r.1) <= EffectiveWindow(s)
  {
    var w := EffectiveWindow(s);
    var syn := !s.synSent;
    var room := w - InFlight(s) - (if syn then 1 else 0);
    var (input, payload) := ByteStream.Read(s.input, Min(s.maxPayload, room));
    var fin := !s.finSent && ByteStream.IsFinished(input) && InFlight(s) + (if syn then 1 else 0) + |payload| < w;
    (input, Segment(Wrap(s.nextSeqno, s.isn), syn, payload, fin))
  }

  /** Can the sender emit a segment now?  Not after a reset or the FIN, not
      into a full window, and not when the framed segment would be empty. */
  predicate CanSend(s: Sender) {
    && Inv(s) && !HasError(s) && !s.finSent && InFlight(s) < EffectiveWindow(s)
    && SeqLen(Frame(s).1) > 0
  }

  /** Sends the framed segment: the stream gives up its payload, the
      segment becomes the last outstanding entry and `nextSeqno` moves past it. */
  function Emit(s: Sender): (t: Sender)
    requires CanSend(s)
    ensures Inv(t)
    ensures t.outstanding == s.outstanding + [Outstanding(s.nextSeqno, Frame(s).1)]
    ensures t.nextSeqno == s.nextSeqno + SeqLen(Frame(s).1)
    ensures t.input == Frame(s).0
    ensures InFlight(t) == InFlight(s) + SeqLen(Frame(s).1)
    ensures t.synSent && (t.finSent <==> Frame(s).1.fin)
    ensures t.isn == s.isn && t.window == s.window && t.maxPayload == s.maxPayload
  {
    var f := Frame(s);
    var t := s.(input := f.0, nextSeqno := s.nextSeqno + SeqLen(f.1),
                outstanding := s.outstanding + [Outstanding(s.nextSeqno, f.1)],
                synSent := true, finSent := s.finSent || f.1.fin);
    EmitInv(s, f.0, f.1, t);
    t
  }

  lemma EmitInv(s: Sender, input: ByteStream.Stream, seg: Segment, t: Sender)
    requires Inv(s) && InFlight(s) < EffectiveWindow(s)
    requires (input, seg) == Frame(s) && SeqLen(seg) > 0
    requires t == s.(input := input, nextSeqno := s.nextSeqno + SeqLen(seg),
                     outstanding := s.outstanding + [Outstanding(s.nextSeqno, seg)],
                     synSent := true, finSent := s.finSent || seg.fin)
    ensures Inv(t) && InFlight(t) == InFlight(s) + SeqLen(seg)
  {
    var o := Outstanding(s.nextSeqno, seg);
    SumLenAppend(s.outstanding, o);
    ContiguousAppend(s.outstanding, FirstUnacked(s), s.nextSeqno, seg);
    assert FirstUnacked(t) == FirstUnacked(s);
    AppendKeepsTracked(s.isn, s.outstanding, o);
    assert ByteStream.BytesPopped(input) == ByteStream.BytesPopped(s.input) + |seg.payload|;
    assert seg.syn == !s.synSent;
    assert seg.fin ==> !s.finSent && ByteStream.IsClosed(input);
  }

  /** Appending a well-formed entry keeps every entry well formed. */
  lemma AppendKeepsTracked(isn: U32, xs: seq<Outstanding>, x: Outstanding)
    requires (forall i :: 0 <= i < |xs| ==> Tracked(isn, xs[i])) && Tracked(isn, x)
    ensures forall i :: 0 <= i < |xs + [x]| ==> Tracked(isn, (xs + [x])[i])
  {
    forall i | 0 <= i < |xs + [x]|
      ensures Tracked(isn, (xs + [x])[i])
    {
      if i < |xs| {
        assert (xs + [x])[i] == xs[i];
      }
    }
  }

  /** Sends segments until the window is full, the stream has nothing more
      to give, the FIN is out, or the connection has been reset. */
  function MakeSegments(s: Sender): (r: (Sender, seq<Segment>))
    requires Inv(s)
    ensures Inv(r.0)
    ensures r.0.isn == s.isn && r.0.window == s.window && r.0.maxPayload == s.maxPayload
    ensures HasError(s) || s.finSent || InFlight(s) >= EffectiveWindow(s) ==> r == (s, [])
    decreases EffectiveWindow(s) - InFlight(s)
  {
    if CanSend(s) then
      var rest := MakeSegments(Emit(s));
      (rest.0, [Frame(s).1] + rest.1)
    else (s, [])
  }

  // ----- Properties of segment generation -----

  /** Stopping case of `MakeSegments`. */
  lemma MakeSegmentsStops(s: Sender)
    requires Inv(s) && !CanSend(s)
    ensures MakeSegments(s) == (s, [])
  {
  }

  /** Sending case of `MakeSegments`: the framed segment, then the rest. */
  lemma MakeSegmentsSends(s: Sender)
    requires CanSend(s)
    ensures MakeSegments(s) == (MakeSegments(Emit(s)).0, [Frame(s).1] + MakeSegments(Emit(s)).1)
  {
  }

  lemma ConsSegments(from: nat, seg: Segment, rest: seq<Segment>)
    ensures Track(from, [seg] + rest) == [Outstanding(from, seg)] + Track(from + SeqLen(seg), rest)
    ensures TotalLen([seg] + rest) == SeqLen(seg) + TotalLen(rest)
    ensures Payloads([seg] + rest) == seg.payload + Payloads(rest)
  {
    assert ([seg] + rest)[1..] == rest;
  }

  /** The emitted segments are recorded, back to back from the old
      `nextSeqno`, as the newest outstanding entries. */
  lemma {:induction false} MakeSegmentsTracks(s: Sender)
    requires Inv(s)
    ensures MakeSegments(s).0.outstanding == s.outstanding + Track(s.nextSeqno, MakeSegments(s).1)
    decreases EffectiveWindow(s) - InFlight(s)
  {
    if CanSend(s) {
      var t := Emit(s);
      MakeSegmentsSends(s);
      MakeSegmentsTracks(t);
      TracksStep(s.outstanding, s.nextSeqno, Frame(s).1, MakeSegments(t).1,
                 t.outstanding, t.nextSeqno, MakeSegments(t).0.outstanding);
    } else {
      MakeSegmentsStops(s);
    }
  }

  /** Combining step of `MakeSegmentsTracks`. */
  lemma TracksStep(xs: seq<Outstanding>, from: nat, seg: Segment, rest: seq<Segment>,
                   txs: seq<Outstanding>, tfrom: nat, ys: seq<Outstanding>)
    requires txs == xs + [Outstanding(from, seg)] && tfrom == from + SeqLen(seg)
    requires ys == txs + Track(tfrom, rest)
    ensures ys == xs + Track(from, [seg] + rest)
  {
    ConsSegments(from, seg, rest);
    assert (xs + [Outstanding(from, seg)]) + Track(from + SeqLen(seg), rest)
      == xs + ([Outstanding(from, seg)] + Track(from + SeqLen(seg), rest));
  }

  /** The sequence numbers in flight grow by exactly those of the segments
      sent. */
  lemma MakeSegmentsInFlight(s: Sender)
    requires Inv(s)
    ensures InFlight(MakeSegments(s).0) == InFlight(s) + TotalLen(MakeSegments(s).1)
  {
    MakeSegmentsTracks(s);
    SumLenConcat(s.outstanding, Track(s.nextSeqno, MakeSegments(s).1));
    TrackLen(s.nextSeqno, MakeSegments(s).1);
  }

  /** `nextSeqno` moves past every emitted segment. */
  lemma {:induction false} MakeSegmentsAdvances(s: Sender)
    requires Inv(s)
    ensures MakeSegments(s).0.nextSeqno == s.nextSeqno + TotalLen(MakeSegments(s).1)
    decreases EffectiveWindow(s) - InFlight(s)
  {
    if CanSend(s) {
      var t := Emit(s);
      MakeSegmentsSends(s);
      MakeSegmentsAdvances(t);
      ConsSegments(s.nextSeqno, Frame(s).1, MakeSegments(t).1);
    } else {
      MakeSegmentsStops(s);
    }
  }

  /** Nothing is lost or reordered: the payloads sent, concatenated, are
      exactly the bytes taken from the front of the stream. */
  lemma {:induction false} MakeSegmentsInOrder(s: Sender)
    requires Inv(s)
    ensures |Payloads(MakeSegments(s).1)| <= ByteStream.BytesBuffered(s.input)
    ensures Payloads(MakeSegments(s).1) == ByteStream.Contents(s.input)[..|Payloads(MakeSegments(s).1)|]
    ensures MakeSegments(s).0.input == ByteStream.Pop(s.input, |Payloads(MakeSegments(s).1)|)
    decreases EffectiveWindow(s) - InFlight(s)
  {
    if CanSend(s) {
      var t := Emit(s);
      MakeSegmentsSends(s);
      MakeSegmentsInOrder(t);
      var rest := MakeSegments(t).1;
      ConsSegments(s.nextSeqno, Frame(s).1, rest);
      InOrderStep(s.input, Frame(s).1.payload, t.input, Payloads(rest), MakeSegments(t).0.input);
    } else {
      MakeSegmentsStops(s);
      assert ByteStream.Pop(s.input, 0) == s.input;
    }
  }

  /** Combining step of `MakeSegmentsInOrder`: reading `p` and then `q` from
      the front reads `p + q` from the front. */
  lemma InOrderStep(a: ByteStream.Stream, p: string, b: ByteStream.Stream, q: string, c: ByteStream.Stream)
    requires ByteStream.Valid(a) && |p| <= ByteStream.BytesBuffered(a)
    requires p == ByteStream.Contents(a)[..|p|] && b == ByteStream.Pop(a, |p|)
    requires |q| <= ByteStream.BytesBuffered(b)
    requires q == ByteStream.Contents(b)[..|q|] && c == ByteStream.Pop(b, |q|)
    ensures |p + q| <= ByteStream.BytesBuffered(a)
    ensures p + q == ByteStream.Contents(a)[..|p + q|]
    ensures c == ByteStream.Pop(a, |p + q|)
  {
    var x := ByteStream.Contents(a);
    ByteStream.PopContents(a, |p|);
    assert ByteStream.Contents(b) == x[|p|..];
    assert q == x[|p|..][..|q|];
    assert p + q == x[..|p| + |q|];
  }

  /** Segments are only sent into the window: once anything is sent, the
      sequence numbers in flight fit in the effective window. */
  lemma {:induction false} MakeSegmentsRespectsWindow(s: Sender)
    requires Inv(s)
    ensures MakeSegments(s).1 != [] ==> InFlight(MakeSegments(s).0) <= EffectiveWindow(s)
    decreases EffectiveWindow(s) - InFlight(s)
  {
    if CanSend(s) {
      MakeSegmentsRespectsWindow(Emit(s));
    }
  }

  /** Only the first segment ever sent carries SYN, and a FIN ends the run. */
  lemma {:induction false} MakeSegmentsFlags(s: Sender)
    requires Inv(s)
    ensures forall i :: 0 <= i < |MakeSegments(s).1| ==>
      (MakeSegments(s).1[i].syn <==> i == 0 && !s.synSent)
    ensures forall i :: 0 <= i < |MakeSegments(s).1| && MakeSegments(s).1[i].fin ==>
      i == |MakeSegments(s).1| - 1 && !s.finSent
    decreases EffectiveWindow(s) - InFlight(s)
  {
    if CanSend(s) {
      var t := Emit(s);
      MakeSegmentsSends(s);
      MakeSegmentsFlags(t);
      FlagsStep(Frame(s).1, MakeSegments(t).1, s.synSent, s.finSent);
    }
  }

  /** Combining step of `MakeSegmentsFlags`. */
  lemma FlagsStep(seg: Segment, rest: seq<Segment>, synSent: bool, finSent: bool)
    requires seg.syn <==> !synSent
    requires seg.fin ==> !finSent && rest == []
    requires forall i :: 0 <= i < |rest| ==> !rest[i].syn
    requires forall i :: 0 <= i < |rest| && rest[i].fin ==> i == |rest| - 1 && !finSent
    ensures forall i :: 0 <= i < |[seg] + rest| ==> (([seg] + rest)[i].syn <==> i == 0 && !synSent)
    ensures forall i :: 0 <= i < |[seg] + rest| && ([seg] + rest)[i].fin ==>
      i == |[seg] + rest| - 1 && !finSent
  {
  }

  /** The sender stops only when it must: the connection was reset, the FIN
      is out, the window is full, or the SYN is out and the stream, not yet
      finished, has no byte the payload limit lets it send. */
  lemma {:induction false} MakeSegmentsFillsWindow(s: Sender)
    requires Inv(s)
    ensures var t := MakeSegments(s).0;
      || HasError(t) || t.finSent || InFlight(t) >= EffectiveWindow(t)
      || (t.synSent && !ByteStream.IsFinished(t.input)
          && (ByteStream.BytesBuffered(t.input) == 0 || t.maxPayload == 0))
    decreases EffectiveWindow(s) - InFlight(s)
  {
    if CanSend(s) {
      MakeSegmentsFillsWindow(Emit(s));
    } else if !(HasError(s) || s.finSent || InFlight(s) >= EffectiveWindow(s)) {
      assert Frame(s).0 == s.input;
    }
  }

  /** A sender with nothing to say stays silent: the SYN is out, no byte is
      buffered, and the stream is still open or its FIN already sent. */
  lemma NothingToSend(s: Sender)
    requires Inv(s) && s.synSent && ByteStream.BytesBuffered(s.input) == 0
    requires !ByteStream.IsClosed(s.input) || s.finSent
    ensures MakeSegments(s) == (s, [])
  {
    if !HasError(s) && !s.finSent && InFlight(s) < EffectiveWindow(s) {
      assert SeqLen(Frame(s).1) == 0;
    }
    MakeSegmentsStops(s);
  }

  // ----- Writing -----

  /** The application writes `data` into the outbound stream, closes it if
      `close`, and the sender then sends what it can. */
  function Push(s: Sender, data: string, close: bool): (r: (Sender, seq<Segment>))
    requires Inv(s)
    ensures Inv(r.0)
    ensures r.0.isn == s.isn && r.0.window == s.window && r.0.maxPayload == s.maxPayload
  {
    var pushed := ByteStream.Push(s.input, data);
    var input := if close then ByteStream.Close(pushed) else pushed;
    WriteKeepsInv(s, input);
    MakeSegments(s.(input := input))
  }

  /** Writing into the stream or closing it keeps the invariant: neither
      pops a byte nor reopens the stream. */
  lemma WriteKeepsInv(s: Sender, input: ByteStream.Stream)
    requires Inv(s) && ByteStream.Valid(input)
    requires ByteStream.BytesPopped(input) == ByteStream.BytesPopped(s.input)
    requires ByteStream.IsClosed(s.input) ==> ByteStream.IsClosed(input)
    ensures Inv(s.(input := input))
  {
    assert FirstUnacked(s.(input := input)) == FirstUnacked(s);
  }

  // ----- Acknowledgments -----

  /** Drops the leading entries that `ack` covers completely. */
  function DropAcked(xs: seq<Outstanding>, ack: nat): (r: seq<Outstanding>)
    ensures |r| <= |xs| && r == xs[|xs| - |r|..]
    ensures forall i :: 0 <= i < |xs| - |r| ==> xs[i].start + SeqLen(xs[i].seg) <= ack
    ensures |r| > 0 ==> r[0].start + SeqLen(r[0].seg) > ack
  {
    if |xs| == 0 || xs[0].start + SeqLen(xs[0].seg) > ack then xs
    else DropAcked(xs[1..], ack)
  }

  /** Processes the receiver's feedback.  A reset aborts the stream.  A
      message without ackno only updates the window.  An ackno is unwrapped
      next to `nextSeqno`; one below the first unacknowledged number or above
      `nextSeqno` is ignored, any other updates the window and retires every
      segment it covers completely. */
  function Receive(s: Sender, msg: ReceiverMessage): (r: Sender)
    requires Inv(s)
    ensures Inv(r)
    ensures r.nextSeqno == s.nextSeqno && r.isn == s.isn && r.maxPayload == s.maxPayload
    ensures r.synSent == s.synSent && r.finSent == s.finSent
    ensures HasError(r) <==> HasError(s) || msg.rst
  {
    if msg.rst then s.(input := ByteStream.SetError(s.input))
    else if msg.ackno.None? then s.(window := msg.windowSize)
    else
      var ack := Unwrap(msg.ackno.value, s.isn, s.nextSeqno);
      if ack < FirstUnacked(s) || ack > s.nextSeqno then s
      else
        AckKeepsInv(s, ack, msg.windowSize);
        s.(window := msg.windowSize, outstanding := DropAcked(s.outstanding, ack))
  }

  /** Retiring the entries an in-range ack covers keeps the invariant and
      never adds to the sequence numbers in flight. */
  lemma AckKeepsInv(s: Sender, ack: nat, window: U16)
    requires Inv(s) && FirstUnacked(s) <= ack <= s.nextSeqno
    ensures var r := s.(window := window, outstanding := DropAcked(s.outstanding, ack));
      Inv(r) && InFlight(r) <= InFlight(s)
  {
    var xs := s.outstanding;
    var kept := DropAcked(xs, ack);
    var r := s.(window := window, outstanding := kept);
    DropKeepsTiling(xs, FirstUnacked(s), s.nextSeqno, |xs| - |kept|);
    DropKeepsTracked(s.isn, xs, |xs| - |kept|);
    assert FirstUnacked(r) == (if |kept| == 0 then s.nextSeqno else kept[0].start);
  }

  /** Dropping the first `k` entries of a tiling leaves a tiling of a
      suffix of the range, with fewer sequence numbers. */
  lemma DropKeepsTiling(xs: seq<Outstanding>, from: nat, to: nat, k: nat)
    requires Contiguous(xs, from, to) && k <= |xs|
    ensures var from' := if k == |xs| then to else xs[k].start;
      Contiguous(xs[k..], from', to) && SumLen(xs[k..]) <= SumLen(xs)
  {
    ContiguousDrop(xs, from, to, k);
    ContiguousSum(xs, from, to);
    ContiguousSum(xs[k..], if k == |xs| then to else xs[k].start, to);
    if k < |xs| {
      ContiguousEnds(xs, from, to, k);
    }
  }

  /** Dropping entries keeps the remaining ones well formed. */
  lemma DropKeepsTracked(isn: U32, xs: seq<Outstanding>, k: nat)
    requires k <= |xs| && forall i :: 0 <= i < |xs| ==> Tracked(isn, xs[i])
    ensures forall i :: 0 <= i < |xs[k..]| ==> Tracked(isn, xs[k..][i])
  {
    forall i | 0 <= i < |xs[k..]|
      ensures Tracked(isn, xs[k..][i])
    {
      assert xs[k..][i] == xs[k + i];
    }
  }

  // ----- Properties of acknowledgments -----

  /** Feedback only ever retires segments from the front: what stays
      outstanding is a suffix of what was, with no more sequence numbers. */
  lemma ReceiveRetiresPrefix(s: Sender, msg: ReceiverMessage)
    requires Inv(s)
    ensures var r := Receive(s, msg);
      && |r.outstanding| <= |s.outstanding|
      && r.outstanding == s.outstanding[|s.outstanding| - |r.outstanding|..]
      && InFlight(r) <= InFlight(s)
  {
    if !msg.rst && msg.ackno.Some? {
      var ack := Unwrap(msg.ackno.value, s.isn, s.nextSeqno);
      if FirstUnacked(s) <= ack <= s.nextSeqno {
        AckKeepsInv(s, ack, msg.windowSize);
      }
    }
  }

  /** Acknowledging `nextSeqno` retires every outstanding segment. */
  lemma ReceiveAcksAll(s: Sender, msg: ReceiverMessage)
    requires Inv(s) && !msg.rst && msg.ackno == Some(Wrap(s.nextSeqno, s.isn))
    ensures var r := Receive(s, msg);
      r.outstanding == [] && InFlight(r) == 0 && FirstUnacked(r) == r.nextSeqno
      && r.window == msg.windowSize && r.input == s.input
  {
    UnwrapWrapSelf(s.nextSeqno, s.isn);
    InFlightSpan(s);
    ReceiveInRange(s, msg, s.nextSeqno);
    DropAcksAll(s.outstanding, FirstUnacked(s), s.nextSeqno);
  }

  /** Unfolds `Receive` for an ack that unwraps to `ack`, in range. */
  lemma ReceiveInRange(s: Sender, msg: ReceiverMessage, ack: nat)
    requires Inv(s) && !msg.rst && msg.ackno.Some?
    requires ack == Unwrap(msg.ackno.value, s.isn, s.nextSeqno) && FirstUnacked(s) <= ack <= s.nextSeqno
    ensures Receive(s, msg) == s.(window := msg.windowSize, outstanding := DropAcked(s.outstanding, ack))
  {
  }

  /** An ack at the end of a tiling retires all of it. */
  lemma {:induction false} DropAcksAll(xs: seq<Outstanding>, from: nat, to: nat)
    requires Contiguous(xs, from, to)
    ensures DropAcked(xs, to) == []
  {
    if |xs| > 0 {
      ContiguousSum(xs[1..], from + SeqLen(xs[0].seg), to);
      DropAcksAll(xs[1..], from + SeqLen(xs[0].seg), to);
    }
  }

  /** Acknowledging the first unacknowledged number covers no whole segment:
      nothing is retired, only the window is taken over. */
  lemma ReceiveAcksNone(s: Sender, msg: ReceiverMessage)
    requires Inv(s) && !msg.rst && msg.ackno == Some(Wrap(FirstUnacked(s), s.isn))
    ensures var r := Receive(s, msg);
      r.outstanding == s.outstanding && InFlight(r) == InFlight(s)
      && r.window == msg.windowSize && r.input == s.input
  {
    InFlightSpan(s);
    UnwrapWrap(FirstUnacked(s), s.isn, s.nextSeqno);
    ReceiveInRange(s, msg, FirstUnacked(s));
    if |s.outstanding| > 0 {
      assert Tracked(s.isn, s.outstanding[0]);
    }
  }

  /** Acknowledging `k` sequence numbers that were never sent changes nothing,
      not even the window. */
  lemma ReceiveIgnoresUnsent(s: Sender, msg: ReceiverMessage, k: nat)
    requires Inv(s) && !msg.rst && 0 < k < Modulus / 2
    requires msg.ackno == Some(Wrap(s.nextSeqno + k, s.isn))
    ensures Receive(s, msg) == s
  {
    UnwrapWrap(s.nextSeqno + k, s.isn, s.nextSeqno);
  }

  /** Acknowledging numbers below the first unacknowledged one, up to half a
      cycle back from `nextSeqno`, changes nothing, not even the window: an
      old ack is ignored. */
  lemma ReceiveIgnoresStale(s: Sender, msg: ReceiverMessage, k: nat)
    requires Inv(s) && !msg.rst && 0 < k <= FirstUnacked(s) && k + InFlight(s) < Modulus / 2
    requires msg.ackno == Some(Wrap(FirstUnacked(s) - k, s.isn))
    ensures Receive(s, msg) == s
  {
    InFlightSpan(s);
    UnwrapWrap(FirstUnacked(s) - k, s.isn, s.nextSeqno);
  }

  /** A message without an ackno only updates the window. */
  lemma ReceiveWindowOnly(s: Sender, msg: ReceiverMessage)
    requires Inv(s) && !msg.rst && msg.ackno.None?
    ensures Receive(s, msg).window == msg.windowSize
    ensures Receive(s, msg).(window := s.window) == s
  {
  }

  /** A reset stops the sender for good: nothing is sent afterwards, whatever
      the application writes or the receiver says next. */
  lemma ResetHalts(s: Sender, msg: ReceiverMessage, next: ReceiverMessage, data: string)
    requires Inv(s) && msg.rst
    ensures var r := Receive(s, msg);
      && HasError(r) && MakeSegments(r).1 == []
      && HasError(Receive(r, next)) && MakeSegments(Receive(r, next)).1 == []
      && MakeSegments(r.(input := ByteStream.Push(r.input, data))).1 == []
  {
    var r := Receive(s, msg);
    var w := r.(input := ByteStream.Push(r.input, data));
    assert Inv(w);
  }

  // ----- Bookkeeping lemmas -----

  lemma {:induction false} SumLenAppend(xs: seq<Outstanding>, x: Outstanding)
    ensures SumLen(xs + [x]) == SumLen(xs) + SeqLen(x.seg)
  {
    if |xs| > 0 {
      assert (xs + [x])[1..] == xs[1..] + [x];
      SumLenAppend(xs[1..], x);
    }
  }

  lemma {:induction false} SumLenConcat(xs: seq<Outstanding>, ys: seq<Outstanding>)
    ensures SumLen(xs + ys) == SumLen(xs) + SumLen(ys)
    decreases |xs|
  {
    if |xs| > 0 {
      assert (xs + ys)[1..] == xs[1..] + ys;
      SumLenConcat(xs[1..], ys);
    } else {
      assert xs + ys == ys;
    }
  }

  /** Appending a segment at the end of a tiling extends the tiling. */
  lemma {:induction false} ContiguousAppend(xs: seq<Outstanding>, from: nat, to: nat, seg: Segment)
    requires Contiguous(xs, from, to)
    ensures Contiguous(xs + [Outstanding(to, seg)], from, to + SeqLen(seg))
  {
    if |xs| > 0 {
      assert (xs + [Outstanding(to, seg)])[1..] == xs[1..] + [Outstanding(to, seg)];
      ContiguousAppend(xs[1..], from + SeqLen(xs[0].seg), to, seg);
    } else {
      assert ([Outstanding(to, seg)])[1..] == [];
    }
  }

  /** Dropping the first `k` entries of a tiling leaves a tiling of the rest. */
  lemma {:induction false} ContiguousDrop(xs: seq<Outstanding>, from: nat, to: nat, k: nat)
    requires Contiguous(xs, from, to) && k <= |xs|
    ensures Contiguous(xs[k..], if k == |xs| then to else xs[k].start, to)
  {
    if k > 0 {
      assert xs[k..] == xs[1..][k - 1..];
      ContiguousDrop(xs[1..], from + SeqLen(xs[0].seg), to, k - 1);
    }
  }

  /** Every entry of a tiling of `[from, to)` lies inside it. */
  lemma {:induction false} ContiguousEnds(xs: seq<Outstanding>, from: nat, to: nat, i: nat)
    requires Contiguous(xs, from, to) && i < |xs|
    ensures from <= xs[i].start && xs[i].start + SeqLen(xs[i].seg) <= to
  {
    if i == 0 {
      ContiguousSum(xs[1..], from + SeqLen(xs[0].seg), to);
    } else {
      ContiguousEnds(xs[1..], from + SeqLen(xs[0].seg), to, i - 1);
    }
  }

  /** A tiling of `[from, to)` occupies exactly `to - from` sequence numbers. */
  lemma {:induction false} ContiguousSum(xs: seq<Outstanding>, from: nat, to: nat)
    requires Contiguous(xs, from, to)
    ensures to == from + SumLen(xs)
  {
    if |xs| > 0 {
      ContiguousSum(xs[1..], from + SeqLen(xs[0].seg), to);
    }
  }

  /** Bytes in flight are the sequence numbers between the first
      unacknowledged one and `nextSeqno`. */
  lemma InFlightSpan(s: Sender)
    requires Inv(s)
    ensures FirstUnacked(s) + InFlight(s) == s.nextSeqno
  {
    ContiguousSum(s.outstanding, FirstUnacked(s), s.nextSeqno);
  }
}

=== FILE: wrap32.dfy ===
/** 32-bit wrapped sequence numbers.

    A wire sequence number is an absolute (64-bit) stream index reduced
    modulo 2^32 and offset by the connection's initial sequence number
    (ISN).  Going back needs a checkpoint: of all absolute indices with the
    given wire value, the one closest to the checkpoint is chosen, ties
    going to the smaller one.
 */
module Wrap32 {

  /** 2^32, the size of the wire sequence-number space. */
  const Modulus: nat := 0x1_0000_0000

  /** A 32-bit unsigned value, as carried on the wire. */
  type U32 = x: nat | x < Modulus

  /** The wire value of absolute index `abs`: `isn + abs` with 32-bit wrap-around. */
  function Wrap(abs: nat, isn: U32): (w: U32)
    ensures (w - isn - abs) % Modulus == 0
  {
    (isn + abs) % Modulus
  }

  /** Distance between two absolute indices. */
  function Dist(a: nat, b: nat): nat {
    if a <= b then b - a else a - b
  }

  /** The absolute index with wire value `w` that is closest to `checkpoint`.
      Only the candidates in the checkpoint's own 2^32-cycle and the two
      neighbouring cycles can be closest. */
  function Unwrap(w: U32, isn: U32, checkpoint: nat): (abs: nat)
    ensures Wrap(abs, isn) == w
    ensures Dist(abs, checkpoint) <= Modulus
  {
    var offset := (w - isn) % Modulus;
    var q := checkpoint / Modulus;
    var base := q * Modulus + offset;
    CandidateWraps(w, isn, q);
    CandidateWraps(w, isn, q + 1);
    if base > checkpoint then
      if q > 0 && checkpoint - (base - Modulus) <= base - checkpoint then
        CandidateWraps(w, isn, q - 1);
        base - Modulus
      else base
    else
      if base + Modulus - checkpoint < checkpoint - base then base + Modulus else base
  }

  /** Every index `q * 2^32 + ((w - isn) mod 2^32)` wraps to `w`. */
  lemma CandidateWraps(w: U32, isn: U32, q: nat)
    ensures Wrap(q * Modulus + (w - isn) % Modulus, isn) == w
  {
    var offset := (w - isn) % Modulus;
    assert isn + offset == w || isn + offset == w + Modulus;
  }

  /** Unwrapping inverts wrapping for every index within half a cycle of the
      checkpoint; in particular `Unwrap(Wrap(x, isn), isn, x) == x`. */
  lemma UnwrapWrap(x: nat, isn: U32, checkpoint: nat)
    requires Dist(x, checkpoint) < Modulus / 2
    ensures Unwrap(Wrap(x, isn), isn, checkpoint) == x
  {
    var offset := (Wrap(x, isn) - isn) % Modulus;
    assert offset == x % Modulus;
    var q, p := x / Modulus, checkpoint / Modulus;
    var base := p * Modulus + offset;
    assert x == q * Modulus + x % Modulus;
    assert checkpoint == p * Modulus + checkpoint % Modulus;
    assert x - base == (q - p) * Modulus;
    assert -1 <= q - p <= 1;
    if q == p {
      assert x == base;
    } else if q == p + 1 {
      assert x == base + Modulus;
    } else {
      assert x == base - Modulus;
    }
  }

  /** The checkpoint's own index is recovered from its wire value. */
  lemma UnwrapWrapSelf(x: nat, isn: U32)
    ensures Unwrap(Wrap(x, isn), isn, x) == x
  {
    UnwrapWrap(x, isn, x);
  }


  /** Unwrapping picks the nearest index with the given wire value: no
      other index with that wire value is closer to the checkpoint, and one
      that is as close is not smaller. */
  lemma UnwrapNearest(w: U32, isn: U32, checkpoint: nat)
    ensures forall a: nat :: Wrap(a, isn) == w ==>
      && Dist(Unwrap(w, isn, checkpoint), checkpoint) <= Dist(a, checkpoint)
      && (Dist(Unwrap(w, isn, checkpoint), checkpoint) == Dist(a, checkpoint) ==> Unwrap(w, isn, checkpoint) <= a)
  {
    forall a: nat | Wrap(a, isn) == w
      ensures && Dist(Unwrap(w, isn, checkpoint), checkpoint) <= Dist(a, checkpoint)
              && (Dist(Unwrap(w, isn, checkpoint), checkpoint) == Dist(a, checkpoint) ==> Unwrap(w, isn, checkpoint) <= a)
    {
      UnwrapNearestTo(w, isn, checkpoint, a);
    }
  }

  /** `UnwrapNearest` for one competing index `a`. */
  lemma UnwrapNearestTo(w: U32, isn: U32, checkpoint: nat, a: nat)
    requires Wrap(a, isn) == w
    ensures Dist(Unwrap(w, isn, checkpoint), checkpoint) <= Dist(a, checkpoint)
    ensures Dist(Unwrap(w, isn, checkpoint), checkpoint) == Dist(a, checkpoint) ==> Unwrap(w, isn, checkpoint) <= a
  {
    var offset := (w - isn) % Modulus;
    var q, k := checkpoint / Modulus, a / Modulus;
    var base := q * Modulus + offset;
    assert a % Modulus == offset;
    assert a == k * Modulus + offset;
    assert checkpoint == q * Modulus + checkpoint % Modulus;
    assert a - base == (k - q) * Modulus;
    if k + 1 < q {
      assert a - base <= -2 * Modulus;
    } else if k > q + 1 {
      assert a - base >= 2 * Modulus;
    }
  }
}

=== FILE: wrappers.dfy ===
/** Optional values, shared by the stream and sender models. */
module Wrappers {

  /** Either no value, or `value`: the push as written yields `None` for a
      copy outside the storage, and a receiver message may carry no ackno. */
  datatype Option<T> = None | Some(value: T)
}
